=== FILE: README.md ===
# TicketFlow dashboard — a Dafny model

TicketFlow is a React dashboard for support tickets. Tickets sit in four
columns: open, in progress, resolved and closed. The dashboard owns the ticket
collection. It creates tickets with the current time as their id, patches
them by id and deletes them after a confirmation. It shows them filtered by
a search text and three drop-downs, sorted by a chosen field and direction,
and grouped by status, with summary counts. Cards can be dragged onto
columns, and a column refuses drops when it is restricted (the closed one).
Each card has a status menu, an inline editor and a delete action. The
ticket editor validates its fields and normalises tags and hours before it
hands them on. The login form accepts any non-empty username and password
and makes up a profile from the username.

The model is functional. Every handler is a pure function from the
collection or component state, and the event, to the next state and
whatever request the component sends its parent. The modules are:

- `Wrappers`: `Option`.
- `Seqs`: filter, count and sub-sequence facts.
- `Text`: the string primitives the code uses. These are lower-casing,
  `includes`, `trim`, `split`, `join`, `parseInt` and number printing.
- `Tickets`: the ticket record, the status and priority constants, and
  patches (the object spread `{...ticket, ...updates}`).
- `Store`: the dashboard's create, update and delete handlers.
- `Query`: the filter and sort pipeline, the status columns, the header
  statistics and the assignee list.
- `TicketForm`: the ticket editor's initial values, validation, submit and
  change handlers.
- `TicketColumn`: the drag-and-drop state of a column, its drop handler and
  its badges.
- `TicketCard`: the due-date label, the drag payload, the status menu and
  the inline editor.
- `LoginForm`: the login form.
- `Scenarios`: end-to-end walks from an empty form to the board.

Times are whole milliseconds. The clock is a parameter `now`. The editor's
validation takes the start of the current day as a parameter `todayStart`.

Closed is not a final status. A closed card is still draggable
(`src/components/TicketCard.jsx:51-53`). Its menu offers "Start Progress",
"Mark Resolved" and "Reopen" (`src/components/TicketCard.jsx:188-214`). A
drop onto any of the three unrestricted columns moves it there. Only drops
*onto* the closed column are refused. `TicketCard.DragAndDrop`,
`TicketCard.MenuSizes` and `TicketCard.MenuMovesTicket` state this.

## Model

| member | source | states |
|---|---|---|
| Tickets.DayOf | src/components/TicketForm.jsx:10 | The calendar day of an instant: it starts at a multiple of a day at or before the instant, and the instant is less than a day after it. |
| Tickets.StatusPatch | src/components/TicketCard.jsx:56 | A status-only update carries the new status and no other key. |
| Tickets.ApplyKeepsIdentity | src/pages/Dashboard.jsx:133-139 | Updating a ticket never changes its id or creation time, and it stamps the update time. |
| Tickets.ApplyEmpty | src/pages/Dashboard.jsx:136 | An update with no keys only refreshes the update time. |
| Tickets.ApplyThen | src/pages/Dashboard.jsx:136 | Two successive updates equal one update with the merged keys, where the later one wins. |
| Tickets.ApplyIdempotent | src/pages/Dashboard.jsx:136 | Applying the same update twice equals applying it once at the later time. |
| Tickets.ApplyStatusPatch | src/pages/Dashboard.jsx:133-139 | A status update changes exactly the status and the update time. |
| Store.NewTicket | src/pages/Dashboard.jsx:122-128 | A new ticket takes the submit time as id, creation and update time, and keeps every submitted field. |
| Store.Create | src/pages/Dashboard.jsx:122-131 | Creating appends exactly one ticket at the end and leaves the earlier ones untouched. |
| Store.CreateKeepsIdsUnique | src/pages/Dashboard.jsx:124 | If every stored id is a time before now, then ids stay unique after a create, and none exceeds now. |
| Store.Update | src/pages/Dashboard.jsx:133-139 | Only tickets with the given id change, and each gets the patch. The length, ids and creation times are kept. An unknown id changes nothing. |
| Store.UpdateKeepsIdsUnique | src/pages/Dashboard.jsx:133-139 | An update keeps the ids unique. |
| Store.UpdateAdvancesTime | src/pages/Dashboard.jsx:136 | The updated ticket's update time moves forward when the clock has advanced. |
| Store.Delete | src/pages/Dashboard.jsx:146-150 | If not confirmed, nothing changes. If confirmed, the result is a sub-sequence that keeps every ticket of another id, with its multiplicity, and drops exactly the tickets with that id. |
| Store.CountComplement | src/pages/Dashboard.jsx:148 | The tickets with an id and those without it together make up the collection. |
| Store.DeleteKeepsIdsUnique | src/pages/Dashboard.jsx:146-150 | A delete keeps the ids unique. |
| Store.FilterKeepsIdsUnique | src/pages/Dashboard.jsx:148 | Dropping tickets never creates a duplicate id. |
| Store.DeleteAfterUpdate | src/pages/Dashboard.jsx:133-150 | Deleting a ticket erases any earlier update made to it. |
| Store.SubmitDraft | src/pages/Dashboard.jsx:652-659 | Without an edited ticket the editor's submit keeps every stored ticket and appends the new one. With one, the edited ticket takes all nine submitted fields and the update time and keeps its id and creation time. Every other ticket is unchanged. |
| Query.FilterTickets | src/pages/Dashboard.jsx:152-162 | The list shows, in stored order and with their multiplicity, exactly the tickets that match the search and all three drop-downs. |
| Query.FilterTicketsIdempotent | src/pages/Dashboard.jsx:152-162 | Filtering an already filtered list changes nothing. |
| Query.UnfilteredShowsAll | src/pages/Dashboard.jsx:157-159 | With no search text and every drop-down on "all", every ticket is shown. |
| Query.SearchIgnoresCase | src/pages/Dashboard.jsx:154-156 | Searching with a query and with its lower-case form gives the same matches. |
| Query.LowerIdempotent | src/pages/Dashboard.jsx:154 | Lower-casing twice is the same as lower-casing once. |
| Query.KeyLeTotal | src/pages/Dashboard.jsx:163-177 | Any two tickets are comparable on every sort field. |
| Query.KeyLeTransitive | src/pages/Dashboard.jsx:163-177 | The sort order on every field is transitive. |
| Query.Insert | src/pages/Dashboard.jsx:163-177 | Inserting into a sorted list keeps it sorted and adds exactly that ticket. |
| Query.Sort | src/pages/Dashboard.jsx:163-177 | The sorted list is ordered by the chosen field and direction and is a permutation of the input. |
| Query.Visible | src/pages/Dashboard.jsx:152-177 | The board's list is sorted and holds exactly the filtered tickets, with their multiplicity. |
| Query.PriorityOrderIsAlphabetical | src/pages/Dashboard.jsx:164-165 | Sorting by priority compares the names as strings: critical, high, low, medium. |
| Query.NewestFirst | src/pages/Dashboard.jsx:175 | In descending creation order the newer of two tickets comes first. |
| Query.Reverse | src/pages/Dashboard.jsx:172-176 | The reversal of a list has the same tickets in the opposite positions. |
| Query.SortedUnique | src/pages/Dashboard.jsx:163-177 | Without ties on the key, there is only one sorted arrangement of a collection. |
| Query.DescendingIsReversedAscending | src/pages/Dashboard.jsx:172-176 | Without ties, the descending order is the ascending order reversed. |
| Query.Bucket | src/pages/Dashboard.jsx:179-184 | A column keeps the sorted order and holds exactly the listed tickets with its status, each as many times as it is listed. |
| Query.BucketsDisjoint | src/pages/Dashboard.jsx:179-184 | No ticket appears in two columns. |
| Query.StatusCountsAddUp | src/pages/Dashboard.jsx:188-191 | When every status is one of the four, the four status counts sum to the size. |
| Query.BucketSizes | src/pages/Dashboard.jsx:179-184 | When every status is known, the four columns together hold every listed ticket exactly once. |
| Query.ComputeStats | src/pages/Dashboard.jsx:186-194 | The total is the number of tickets, and no count exceeds it. The lemmas below fix each figure's value. |
| TicketColumn.CriticalFigure | src/pages/Dashboard.jsx:192 | The header's critical figure equals a column's critical count over the whole collection, whose value the priority-count lemmas fix. |
| Query.StatsMatchColumns | src/pages/Dashboard.jsx:179-192 | Each status figure equals the size of that status's column on the unfiltered board, whatever the sort. The critical figure is positive exactly when some ticket is critical. |
| Query.StatsPartition | src/pages/Dashboard.jsx:186-191 | When every status is known, the open, in-progress, resolved and closed figures sum to the total. |
| Query.OverdueIsActiveAndLate | src/pages/Dashboard.jsx:193 | When every status is known, the overdue figure counts the open or in-progress tickets whose due date has passed. |
| Query.OverdueExcludesFinished | src/pages/Dashboard.jsx:193 | The overdue, resolved and closed figures never together exceed the total, so no overdue ticket is finished. |
| Query.AssigneeNames | src/pages/Dashboard.jsx:48 | A name is listed exactly when some ticket has it as a non-empty assignee. |
| Query.UniqueAssignees | src/pages/Dashboard.jsx:48 | The assignee drop-down lists each non-empty assignee exactly once, in order of first appearance. |
| TicketForm.HoursText | src/components/TicketForm.jsx:13 | The hours text reads back as the stored hours. It is empty when there are none, or zero. |
| TicketForm.Initial | src/components/TicketForm.jsx:5-15 | A new form is blank with medium priority and open status. An edit form shows the ticket's fields, the day of its due date, its hours as decimal text and its tags joined by ", ", with priority and status defaulting when empty. |
| TicketForm.HoursError | src/components/TicketForm.jsx:41-43 | Hours are flagged, with the hours message, exactly when non-empty text is not a number or is negative. |
| TicketForm.AcceptedHoursNonNegative | src/components/TicketForm.jsx:41-43 | Non-empty hours text that passes the check never parses to a value below zero. |
| TicketForm.HoursTextAccepted | src/components/TicketForm.jsx:13-43 | The hours shown for a ticket pass the check exactly when the stored hours are absent or not below zero. |
| TicketForm.ValidHoursNonNegative | src/components/TicketForm.jsx:41-63 | A valid submit hands on hours that are absent or not below zero. |
| TicketForm.TitleError | src/components/TicketForm.jsx:25-29 | A title is flagged exactly when it is blank or shorter than 3, and blank takes the "required" message. |
| TicketForm.DescriptionError | src/components/TicketForm.jsx:31-35 | A description is flagged exactly when it is blank or shorter than 10, and blank takes the "required" message. |
| TicketForm.Validate | src/components/TicketForm.jsx:22-47 | Only the four checked fields can carry an error, and each carries one exactly when its rule fails. |
| TicketForm.TitleCheck | src/components/TicketForm.jsx:25-29 | The title error appears exactly when the title is blank or has fewer than 3 characters, with the matching message. |
| TicketForm.DescriptionCheck | src/components/TicketForm.jsx:31-35 | The description error appears exactly when it is blank or has fewer than 10 characters, with the matching message. |
| TicketForm.DueDateCheck | src/components/TicketForm.jsx:37-39 | The due-date error appears exactly when a date is given that is before today. |
| TicketForm.HoursCheck | src/components/TicketForm.jsx:41-43 | The hours error appears exactly when the hours text is bad. |
| TicketForm.ValidIff | src/components/TicketForm.jsx:22-47 | The form is valid exactly when all four field rules hold. |
| TicketForm.TitleRules | src/components/TicketForm.jsx:25-29 | A title with a visible character fails only for length, and padding it with a space can make a short title pass. |
| TicketForm.BlankTitle | src/components/TicketForm.jsx:25-26 | A title of spaces only gets the "required" message. |
| TicketForm.CleanTagsGood | src/components/TicketForm.jsx:64 | Trimmed, non-empty pieces without commas are well-formed tags. |
| TicketForm.ParseTags | src/components/TicketForm.jsx:64 | Empty tag text gives no tags, and every parsed tag is non-empty, trimmed and comma-free. |
| TicketForm.ParseTagsAppend | src/components/TicketForm.jsx:64 | The tags of text with a comma are the tags before the comma followed by the tags after it. |
| TicketForm.ParseTagsPiece | src/components/TicketForm.jsx:64 | Text without a comma gives its trimmed self as one tag, or no tag when it is blank. |
| TicketForm.ParseTagsClean | src/components/TicketForm.jsx:64 | Empty tag text needs no special case: it is the single empty piece, which is dropped. |
| TicketForm.CleanTagsAppend | src/components/TicketForm.jsx:64 | Trimming and dropping empty pieces works piece by piece, so it distributes over concatenation. |
| TicketForm.TagsRoundTrip | src/components/TicketForm.jsx:14-64 | Joining well-formed tags with ", " and parsing them again gives the same tags. |
| TicketForm.ParseTagsStable | src/components/TicketForm.jsx:14-64 | Parsing, joining and parsing again equals parsing once. |
| TicketForm.Normalize | src/components/TicketForm.jsx:60-65 | The payload keeps every text field and the due day. Empty hours become absent, and other hours text is parsed as an integer. The tags are the parsed tag text. |
| TicketForm.EditKeepsTags | src/components/TicketForm.jsx:5-65 | Opening a ticket in the editor and submitting it unchanged keeps its tags and hours. |
| TicketForm.HandleSubmit | src/components/TicketForm.jsx:49-65 | The errors shown are the validation result, and a payload is sent exactly when the form is valid. |
| TicketForm.Set | src/components/TicketForm.jsx:78 | Writing a field changes that field and no other. |
| TicketForm.HandleChange | src/components/TicketForm.jsx:77-82 | Typing changes only that field. It clears that field's error if one is shown and leaves the other errors alone. |
| TicketForm.ChangeToSame | src/components/TicketForm.jsx:77-78 | Typing a field's current value leaves the form data as it was. |
| TicketForm.GetDetermines | src/components/TicketForm.jsx:5-15 | Two forms that agree on every field are equal. |
| TicketColumn.Handle | src/components/TicketColumn.jsx:62-82 | Drag-over lights an unrestricted column, drag-leave darkens it, a restricted column ignores both, and a drop always darkens. |
| TicketColumn.Request | src/components/TicketColumn.jsx:75-82 | A drop asks for a status update exactly when the column is unrestricted and the payload parses to a non-zero id. The update sets that column's status on that id. |
| TicketColumn.Run | src/components/TicketColumn.jsx:62-82 | Drag events never change a column's status or restriction. |
| TicketColumn.RunKeepsCalm | src/components/TicketColumn.jsx:62-73 | A restricted column that starts unlit stays unlit through any events. |
| TicketColumn.BoardStaysCalm | src/components/TicketColumn.jsx:191-199 | On the board, the "cannot drop" indicator never shows. |
| TicketColumn.BoardAccepts | src/pages/Dashboard.jsx:506-548 | Of the board's columns, all but the closed one accept a drop with a valid id. |
| TicketColumn.DropOnBoard | src/components/TicketColumn.jsx:75-82 | An accepted drop moves the dragged ticket to the column's status and leaves the others untouched. A refused drop changes nothing. |
| TicketColumn.RestrictedDropIgnored | src/pages/Dashboard.jsx:539-548 | A drop on the closed column never changes the collection. |
| TicketColumn.ColumnPriorityStats | src/components/TicketColumn.jsx:85-93 | No priority count exceeds the column's size, and each is positive exactly when the column holds a ticket of that priority. The three lemmas below fix each count's value. |
| TicketColumn.PriorityStatsEmpty | src/components/TicketColumn.jsx:85-93 | An empty column has all four counts at zero. |
| TicketColumn.PriorityStatsOne | src/components/TicketColumn.jsx:85-93 | A single ticket adds one to the count of its own priority and zero to the other three. |
| TicketColumn.PriorityStatsAppend | src/components/TicketColumn.jsx:85-93 | Each of the four counts of two columns joined together is the sum of their counts, so the number on each badge is the number of tickets of that priority. |
| TicketColumn.PriorityStatsAddUp | src/components/TicketColumn.jsx:85-93 | When every priority is known, the four priority counts sum to the column's size. |
| TicketColumn.PriorityCountsAddUp | src/components/TicketColumn.jsx:87-90 | When every priority is one of the four, the four priority filters together count every ticket exactly once. |
| TicketColumn.OverdueCount | src/components/TicketColumn.jsx:95-102 | A column's overdue count uses the same rule as the header's overdue figure. |
| TicketColumn.FinishedColumnNotOverdue | src/components/TicketColumn.jsx:95-102 | The resolved and closed columns never show overdue tickets. |
| TicketColumn.Badges | src/components/TicketColumn.jsx:151-171 | An empty or restricted column shows no badges. Otherwise each of the critical, overdue and high badges shows exactly when its count is positive, carrying that count, in the order critical, overdue, high, and no other badge appears. |
| TicketColumn.Shown | src/components/TicketColumn.jsx:153-169 | A badge is shown exactly when its count is positive. |
| TicketCard.CeilDiv | src/components/TicketCard.jsx:37 | Rounding a quotient up gives the least whole number at or above it. |
| TicketCard.Label | src/components/TicketCard.jsx:32-44 | Each label corresponds exactly to a window of time between now and the due instant, and the day counts bound the distance. |
| TicketCard.FormatDateEmpty | src/components/TicketCard.jsx:33 | The label text is empty exactly when there is no due date. |
| TicketCard.LabelCountReadsBack | src/components/TicketCard.jsx:42-43 | The number printed in "n days left" or "n days overdue" is the day count. |
| TicketCard.OverdueDateLabel | src/components/TicketCard.jsx:32-49 | A past due date shows as today, yesterday or overdue. A future one shows as today, tomorrow or days left. |
| TicketCard.CardRedVersusOverdue | src/components/TicketCard.jsx:46-49 | The overdue statistic is the card's past-due test restricted to tickets that are neither resolved nor closed. |
| TicketCard.DragData | src/components/TicketCard.jsx:51-53 | The drag payload parses back to the ticket's id. |
| TicketCard.DragAndDrop | src/components/TicketCard.jsx:51-53 | Dragging any card, a closed one included, onto an unrestricted column moves it there when its id is non-zero. It changes nothing else. |
| TicketCard.MenuTargets | src/components/TicketCard.jsx:188-214 | The menu offers each of in progress, resolved and open once, except the current status. It never offers closed. |
| TicketCard.MenuSizes | src/components/TicketCard.jsx:188-214 | A closed card's menu offers all three targets, and any other card's menu offers two. |
| TicketCard.EditDataOf | src/components/TicketCard.jsx:7-13 | The editor starts from the ticket's title, description and priority, its assignee or empty text when it has none, and the day of its due date. |
| TicketCard.InitialCard | src/components/TicketCard.jsx:5-13 | A card starts with its menu closed, not editing, and with the editor filled from the ticket. |
| TicketCard.StatusChange | src/components/TicketCard.jsx:55-58 | Choosing a status sends a status-only update for this ticket and closes the menu. |
| TicketCard.StartEdit | src/components/TicketCard.jsx:60-63 | Edit opens the editor and closes the menu, and the edits are kept. |
| TicketCard.SavePatch | src/components/TicketCard.jsx:65-69 | Saving sends exactly title, description, assignee, priority and due date. |
| TicketCard.SaveEdit | src/components/TicketCard.jsx:65-71 | Saving closes the editor and sends the edits for this ticket. |
| TicketCard.CancelEdit | src/components/TicketCard.jsx:73-82 | Cancelling closes the editor, resets the edits from the current ticket and sends nothing. |
| TicketCard.CardDelete | src/components/TicketCard.jsx:84-89 | Delete closes the menu, and it requests the deletion only when confirmed. |
| TicketCard.DeleteNeedsBothConfirms | src/pages/Dashboard.jsx:146-150 | A card's delete removes the ticket only when both the card's and the dashboard's dialogs are confirmed. Then every ticket with its id goes and the others stay. |
| TicketCard.SaveUntouched | src/components/TicketCard.jsx:7-71 | Saving an untouched editor still makes the assignee present and moves the due date to the start of its day. |
| TicketCard.MenuMovesTicket | src/components/TicketCard.jsx:55-214 | A menu choice gives the ticket the chosen, different status and changes nothing else but the time. |
| LoginForm.Email | src/components/LoginForm.jsx:39 | The email is the username followed by the fixed domain. |
| LoginForm.EmailInjective | src/components/LoginForm.jsx:39 | Different usernames get different emails. |
| LoginForm.Avatar | src/components/LoginForm.jsx:41 | The avatar address carries the username unencoded in its name parameter. |
| LoginForm.MakeProfile | src/components/LoginForm.jsx:36-42 | The profile has id 1, the username, its email, the Admin role and its avatar. |
| LoginForm.Submit | src/components/LoginForm.jsx:22-50 | A user is logged in exactly when both fields are non-empty. Otherwise the "fill in all fields" error shows, and the form is kept. |
| LoginForm.ShortUsernameAccepted | src/components/LoginForm.jsx:25-28 | Any non-empty username logs in, even a single character. |
| LoginForm.InputChange | src/components/LoginForm.jsx:13-20 | Typing changes only that field and clears the error. |
| LoginForm.FillThenSubmit | src/components/LoginForm.jsx:13-43 | Filling both fields from the start and submitting always logs in. |
| Text.Trim | src/components/TicketForm.jsx:25 | The trimmed text has no surrounding spaces, is empty exactly when the text is all spaces, and leaves trimmed text alone. |
| Text.TrimSlice | src/components/TicketForm.jsx:25 | The trimmed text is a slice of the text with only whitespace before and after it. |
| Text.Split | src/components/TicketForm.jsx:64 | Splitting yields at least one piece. The pieces joined by the separator give back the text, and none contains the separator. |
| Text.SplitAppend | src/components/TicketForm.jsx:64 | Splitting two texts joined by the separator gives the pieces of the first followed by the pieces of the second. |
| Seqs.CountPositive | src/components/TicketColumn.jsx:87-90 | A filtered count is positive exactly when some element passes the filter. |
| Seqs.CountPermutation | src/pages/Dashboard.jsx:180-191 | Rearranging a collection does not change any filtered count. |
| Text.IntToString | src/components/TicketCard.jsx:52 | An integer's decimal text parses back to the integer. |
| Text.ContainsIff | src/pages/Dashboard.jsx:154-156 | Text contains a query exactly when the query occurs at some position. |
| Scenarios.NewTicketLandsInOpen | src/components/TicketForm.jsx:22-65 | A valid title and description typed into a new form, once submitted, give one open ticket, shown in the open column. |
| Scenarios.PrinterJam | src/pages/Dashboard.jsx:122-184 | A high-priority "Printer jam" ticket created in an empty store shows in the open column. |
| Scenarios.ShortTitleRefused | src/components/TicketForm.jsx:25-54 | A two-letter title is refused with the length message, and the store is unchanged. |

## Left out

- Persistence in local storage and the demo tickets seeded on first load (`src/pages/Dashboard.jsx:50-120`, `src/utils/LocalStorage.js`) are outside the model. The collection is a value that the handlers pass along.
- Routing (`src/App.jsx`), the login page shell, the headers, colour maps, icons, and the markup are presentation only.
- Timers and delays are not modelled. This covers the 800 ms and 1500 ms submit waits and the success banner's timeout. The form's focused, submitting and success flags and the login's loading and show-password flags are left out too.
- `window.confirm` is a boolean parameter. The card asks once (`TicketCard.CardDelete`) and the dashboard asks again (`TicketCard.Dispatch`, `Store.Delete`).
- Exporting tickets as a JSON file download (`src/pages/Dashboard.jsx:202-210`) is left out, because it is I/O only.
- Date parsing and formatting (`new Date`, `toISOString`, `split('T')`) are not modelled, and neither are invalid dates. All instants are integer milliseconds. The editor's date input is a day start in milliseconds. The start of today is a parameter, and the model takes no position on time zones. Each of the three separate reads of the clock in the create handler is the same `now`.
- TicketForm.IsNumberText: it accepts an optional sign, digits and one optional fraction. It does not accept what JavaScript's `isNaN` also accepts: surrounding spaces, exponents, hexadecimal and `Infinity`.
- TicketForm.Normalize: hours text with no digit before the point, such as `.5`, passes the check. It then parses to `NaN` in the code and to no hours in the model. Hours go through the model's `ParseInt`. This parser reads optional leading spaces, a sign and decimal digits, and it does not handle the hexadecimal prefix. A fractional hours value is cut at the point.
- Text.Lower: it lower-cases ASCII letters only. `IsSpace` recognises the ASCII white space, no-break space, byte-order mark and the line and paragraph separators, but not the other Unicode space separators that `trim` also removes.
- Query.Sort: the source's comparator never answers 0, so the order of tickets with equal keys depends on the engine. The model states which orders are acceptable: sorted and a permutation. It does not fix the tie order. A missing due date sorts as instant 0.
- Store.Update: patches are a record of optional fields. A patch cannot carry `id` or `createdAt`, which the code's callers never send. Empty assignee and customer texts are stored as present but empty.
- Stale closures and batching of React state updates are not modelled. Each handler sees the current state.
- LoginForm.Submit: the catch branch ("Login failed") cannot be reached from the code shown and is not modelled.
- The sort fields are the five of the sort drop-down (`src/pages/Dashboard.jsx:485-489`): creation time, update time, due date, priority and title. The other fields cannot be chosen and are not modelled.
- Text: a string is a sequence of Unicode scalar values, while JavaScript counts UTF-16 code units. So the length rules for the title and description, and the string order used by the priority sort, differ from the code for text with characters outside the Basic Multilingual Plane. For example, a two-character title made of an emoji and a letter is too short in the model but long enough in the code.

=== FILE: card.dfy ===
/**
 One ticket card: the due-date label and overdue colouring, the drag
 payload, the status menu, and the inline editor with its save and cancel.
 Every action yields the request the card hands to the dashboard; the
 dashboard applies it with `Store.Update` or `Store.Delete`.
 */
module TicketCard {
  import opened Wrappers
  import opened Seqs
  import opened Text
  import opened Tickets
  import opened Store
  import TicketColumn

  // ------------------------------------------------------ due-date label

  /** `Math.ceil(a / b)` for a positive divisor, in integers. */
  function CeilDiv(a: int, b: int): (q: int)
    requires b > 0
    ensures (q - 1) * b < a <= q * b
  {
    -((-a) / b)
  }

  /** Whole days from `now` to `due`, rounded up. */
  function DaysUntil(due: int, now: int): int {
    CeilDiv(due - now, DAY_MS)
  }

  /** What the card shows under the due date. */
  datatype DueLabel = NoDate | Today | Tomorrow | Yesterday | DaysLeft(n: nat) | DaysOverdue(n: nat)

  /**
   The label for a due date, by the rounded-up day difference: 0, 1 and -1
   have names; more than one day ahead counts the days left; more than one
   day behind counts the days overdue.
   */
  function Label(due: Option<int>, now: int): (l: DueLabel)
    ensures due.None? <==> l == NoDate
    ensures l == Today <==> due.Some? && now - DAY_MS < due.value <= now
    ensures l == Tomorrow <==> due.Some? && now < due.value <= now + DAY_MS
    ensures l == Yesterday <==> due.Some? && now - 2 * DAY_MS < due.value <= now - DAY_MS
    ensures l.DaysLeft? <==> due.Some? && due.value > now + DAY_MS
    ensures l.DaysOverdue? <==> due.Some? && due.value <= now - 2 * DAY_MS
    ensures l.DaysLeft? ==> l.n >= 2 && (l.n - 1) * DAY_MS < due.value - now <= l.n * DAY_MS
    ensures l.DaysOverdue? ==> l.n >= 2 && l.n * DAY_MS <= now - due.value < (l.n + 1) * DAY_MS
  {
    match due
    case None => NoDate
    case Some(d) =>
      var days := DaysUntil(d, now);
      if days == 0 then Today
      else if days == 1 then Tomorrow
      else if days == -1 then Yesterday
      else if days > 0 then DaysLeft(days)
      else DaysOverdue(-days)
  }

  /** The label as text. */
  function LabelText(l: DueLabel): string {
    match l
    case NoDate => ""
    case Today => "Today"
    case Tomorrow => "Tomorrow"
    case Yesterday => "Yesterday"
    case DaysLeft(n) => NatToString(n) + " days left"
    case DaysOverdue(n) => NatToString(n) + " days overdue"
  }

  /** `formatDate`: the label text for a due date at time `now`. */
  function FormatDate(due: Option<int>, now: int): string {
    LabelText(Label(due, now))
  }

  /** Only a missing date shows as nothing. */
  lemma FormatDateEmpty(due: Option<int>, now: int)
    ensures FormatDate(due, now) == "" <==> due.None?
  {
    var l := Label(due, now);
    if l.DaysLeft? || l.DaysOverdue? {
      assert |LabelText(l)| >= 1;
    }
  }

  /** The number in a counted label reads back, through `parseInt`, as the day count. */
  lemma LabelCountReadsBack(due: Option<int>, now: int)
    ensures Label(due, now).DaysLeft? ==> ParseInt(FormatDate(due, now)) == Some(Label(due, now).n)
    ensures Label(due, now).DaysOverdue? ==> ParseInt(FormatDate(due, now)) == Some(Label(due, now).n)
  {
    var l := Label(due, now);
    if l.DaysLeft? {
      ParseIntPositive(NatToString(l.n), " days left");
    } else if l.DaysOverdue? {
      ParseIntPositive(NatToString(l.n), " days overdue");
    }
  }

  /** `isOverdue`: a date strictly before now; no date is never overdue. */
  predicate IsOverdueDate(due: Option<int>, now: int) {
    due.Some? && due.value < now
  }

  /**
   The red date and the label agree: an overdue date is labelled today,
   yesterday or overdue, and a date not yet passed today, tomorrow or days left.
   */
  lemma OverdueDateLabel(due: Option<int>, now: int)
    requires due.Some?
    ensures IsOverdueDate(due, now) ==> Label(due, now) in {Today, Yesterday} || Label(due, now).DaysOverdue?
    ensures !IsOverdueDate(due, now) ==> Label(due, now) in {Today, Tomorrow} || Label(due, now).DaysLeft?
  {
  }

  /**
   The card colours a passed date red whatever the status, while the
   dashboard statistic and the column badge also exclude resolved and closed
   tickets.
   */
  lemma CardRedVersusOverdue(t: Ticket, now: int)
    ensures OverdueAt(t, now) <==> IsOverdueDate(t.dueDate, now) && t.status != RESOLVED && t.status != CLOSED
  {
  }

  // -------------------------------------------------------------- drag

  /** `ticket.id.toString()`, written whatever the ticket's status. */
  function DragData(t: Ticket): (data: string)
    ensures ParseInt(data) == Some(t.id)
  {
    IntToString(t.id)
  }

  /**
   Dragging card `i` onto an open, in-progress or resolved column gives that
   ticket the column's status, a closed ticket included; tickets with
   another id are untouched. An id of 0 is falsy and the drop is ignored.
   */
  lemma DragAndDrop(tickets: seq<Ticket>, i: nat, k: nat, now: int)
    requires i < |tickets| && k < 3
    ensures var r := TicketColumn.DropOnBoard(tickets, TicketColumn.BOARD[k], DragData(tickets[i]), now);
      && (tickets[i].id != 0 ==> r[i] == tickets[i].(status := TicketColumn.BOARD[k].status, updatedAt := now))
      && (tickets[i].id != 0 ==> forall j :: 0 <= j < |r| && tickets[j].id != tickets[i].id ==> r[j] == tickets[j])
      && (tickets[i].id == 0 ==> r == tickets)
  {
  }

  // -------------------------------------------------------------- menu

  /**
   The status menu: start progress, mark resolved and reopen, each shown
   unless the ticket already has that status. Closed is never offered.
   */
  function MenuTargets(status: string): (r: seq<string>)
    ensures forall s :: s in r <==> (s == IN_PROGRESS || s == RESOLVED || s == OPEN) && s != status
    ensures NoDup(r)
    ensures CLOSED !in r
  {
    (if status != IN_PROGRESS then [IN_PROGRESS] else [])
    + (if status != RESOLVED then [RESOLVED] else [])
    + (if status != OPEN then [OPEN] else [])
  }

  /** A closed ticket is offered all three targets; a known active status two. */
  lemma MenuSizes(status: string)
    ensures status == CLOSED ==> MenuTargets(status) == [IN_PROGRESS, RESOLVED, OPEN]
    ensures status in {OPEN, IN_PROGRESS, RESOLVED} ==> |MenuTargets(status)| == 2
  {
  }

  // ------------------------------------------------------- card actions

  /** The inline editor's state. */
  datatype EditData = EditData(title: string, description: string, assignee: string, priority: string, dueDate: Option<int>)

  /** The editor seeded from a ticket: a missing assignee as empty text, the due date as its day. */
  function EditDataOf(t: Ticket): (e: EditData)
    ensures e.title == t.title && e.description == t.description && e.priority == t.priority
    ensures e.assignee == t.assignee.GetOr("")
    ensures e.dueDate.Some? <==> t.dueDate.Some?
    ensures t.dueDate.Some? ==> e.dueDate.value <= t.dueDate.value < e.dueDate.value + DAY_MS
    ensures t.dueDate.Some? ==> e.dueDate == Some(DayOf(t.dueDate.value))
  {
    EditData(t.title, t.description, t.assignee.GetOr(""), t.priority,
             if t.dueDate.Some? then Some(DayOf(t.dueDate.value)) else None)
  }

  /** The card's local state: the menu, the editor flag and the editor's values. */
  datatype CardState = CardState(showMenu: bool, editing: bool, edit: EditData)

  function InitialCard(t: Ticket): (s: CardState)
    ensures !s.showMenu && !s.editing && s.edit == EditDataOf(t)
  {
    CardState(false, false, EditDataOf(t))
  }

  /** What an action asks of the dashboard. */
  datatype Request = NoRequest | UpdateRequest(id: int, patch: Patch) | DeleteRequest(id: int)

  /** The result of an action: the card's next state and its request. */
  datatype Outcome = Outcome(card: CardState, request: Request)

  /** Choosing a menu target: a patch with the status alone, and the menu closes. */
  function StatusChange(t: Ticket, s: CardState, status: string): (o: Outcome)
    ensures !o.card.showMenu && o.card.editing == s.editing && o.card.edit == s.edit
    ensures o.request == UpdateRequest(t.id, StatusPatch(status))
    ensures o.request.patch.(status := Absent) == EmptyPatch
  {
    Outcome(s.(showMenu := false), UpdateRequest(t.id, StatusPatch(status)))
  }

  /** Choosing edit: the editor opens and the menu closes. */
  function StartEdit(s: CardState): (r: CardState)
    ensures r.editing && !r.showMenu && r.edit == s.edit
  {
    s.(editing := true, showMenu := false)
  }

  /** The save patch: the five edited keys, no status and nothing else; no validation. */
  function SavePatch(e: EditData): (p: Patch)
    ensures p.title == Present(e.title) && p.description == Present(e.description)
    ensures p.assignee == Present(e.assignee) && p.priority == Present(e.priority)
    ensures p.dueDate == Present(e.dueDate)
    ensures p.status.Absent? && p.customerName.Absent? && p.estimatedHours.Absent? && p.tags.Absent?
  {
    EmptyPatch.(title := Present(e.title), description := Present(e.description),
                assignee := Present(e.assignee), priority := Present(e.priority),
                dueDate := Present(e.dueDate))
  }

  /** Saving: the editor closes, its values stay, and the save patch is sent. */
  function SaveEdit(t: Ticket, s: CardState): (o: Outcome)
    ensures !o.card.editing && o.card.edit == s.edit && o.card.showMenu == s.showMenu
    ensures o.request == UpdateRequest(t.id, SavePatch(s.edit))
  {
    Outcome(s.(editing := false), UpdateRequest(t.id, SavePatch(s.edit)))
  }

  /** Cancelling: the editor closes and its values are rebuilt from the ticket; nothing is sent. */
  function CancelEdit(t: Ticket, s: CardState): (o: Outcome)
    ensures !o.card.editing && o.card.showMenu == s.showMenu
    ensures o.card.edit == InitialCard(t).edit
    ensures o.request == NoRequest
  {
    Outcome(s.(editing := false, edit := EditDataOf(t)), NoRequest)
  }

  /** Deleting: a confirmed request names the ticket; the menu closes either way. */
  function CardDelete(t: Ticket, s: CardState, confirmed: bool): (o: Outcome)
    ensures !o.card.showMenu && o.card.editing == s.editing && o.card.edit == s.edit
    ensures o.request == if confirmed then DeleteRequest(t.id) else NoRequest
  {
    Outcome(s.(showMenu := false), if confirmed then DeleteRequest(t.id) else NoRequest)
  }

  /**
   The dashboard's response to a card's request. The dashboard's delete
   handler asks for a confirmation of its own, so a delete request goes
   through only when `confirmed` answers that second dialog with yes.
   */
  function Dispatch(tickets: seq<Ticket>, r: Request, confirmed: bool, now: int): seq<Ticket> {
    match r
    case NoRequest => tickets
    case UpdateRequest(id, p) => Update(tickets, id, p, now)
    case DeleteRequest(id) => Delete(tickets, id, confirmed)
  }

  /**
   Saving an untouched editor is not a no-op: the assignee becomes present
   (possibly empty) and the due date moves to the start of its day.
   */
  lemma SaveUntouched(t: Ticket, now: int)
    ensures Apply(t, SavePatch(EditDataOf(t)), now) ==
      t.(assignee := Some(t.assignee.GetOr("")),
         dueDate := if t.dueDate.Some? then Some(DayOf(t.dueDate.value)) else None,
         updatedAt := now)
  {
  }

  /** After a status change from the menu, the ticket has the chosen status and nothing else differs but the time. */
  lemma MenuMovesTicket(tickets: seq<Ticket>, i: nat, status: string, confirmed: bool, now: int)
    requires i < |tickets| && status in MenuTargets(tickets[i].status)
    ensures var r := Dispatch(tickets, StatusChange(tickets[i], InitialCard(tickets[i]), status).request, confirmed, now);
      && r[i] == tickets[i].(status := status, updatedAt := now)
      && r[i].status != tickets[i].status
  {
    ApplyStatusPatch(tickets[i], status, now);
  }

  /**
   Deleting from a card asks twice, once on the card and once on the
   dashboard: the ticket goes only when both dialogs are answered yes, and
   then every ticket with its id goes and the others stay.
   */
  lemma DeleteNeedsBothConfirms(tickets: seq<Ticket>, i: nat, cardOk: bool, boardOk: bool, now: int)
    requires i < |tickets|
    ensures var t := tickets[i];
      var r := Dispatch(tickets, CardDelete(t, InitialCard(t), cardOk).request, boardOk, now);
      && (!(cardOk && boardOk) ==> r == tickets)
      && (t in r <==> !(cardOk && boardOk))
      && (forall u: Ticket :: u.id != t.id ==> (u in r <==> u in tickets))
  {
  }
}

=== FILE: column.dfy ===
/**
 One kanban column: its drag-over highlight, the drop that moves a ticket
 into its status, and the header badges (priority counts, overdue count).
 */
module TicketColumn {
  import opened Wrappers
  import opened Seqs
  import opened Text
  import opened Tickets
  import opened Store
  import opened Query

  /**
   A column of the board: the status it collects, whether it refuses drops,
   and whether a drag is hovering over it.
   */
  datatype Column = Column(status: string, restricted: bool, draggingOver: bool)

  /** The board's four columns, left to right; only the closed column refuses drops. */
  const BOARD: seq<Column> := [
    Column(OPEN, false, false),
    Column(IN_PROGRESS, false, false),
    Column(RESOLVED, false, false),
    Column(CLOSED, true, false)
  ]

  /** The browser events a column listens to; a drop carries the dragged text. */
  datatype DragEvent = DragOver | DragLeave | Drop(data: string)

  /** The request a drop hands to the dashboard: patch ticket `id`. */
  datatype Move = Move(id: int, patch: Patch)

  /** The column after an event: over and leave are ignored by a restricted column, a drop always clears. */
  function Handle(c: Column, e: DragEvent): (r: Column)
    ensures r.status == c.status && r.restricted == c.restricted
    ensures e.DragOver? ==> r.draggingOver == (c.draggingOver || !c.restricted)
    ensures e.DragLeave? ==> r.draggingOver == (c.draggingOver && c.restricted)
    ensures e.Drop? ==> !r.draggingOver
  {
    match e
    case DragOver => if c.restricted then c else c.(draggingOver := true)
    case DragLeave => if c.restricted then c else c.(draggingOver := false)
    case Drop(_) => c.(draggingOver := false)
  }

  /**
   The move a drop asks for: the dragged text read with `parseInt`, accepted
   only by an unrestricted column and only when the id is a number other
   than 0 (0 and NaN are falsy).
   */
  function Request(c: Column, e: DragEvent): (r: Option<Move>)
    ensures r.Some? <==> e.Drop? && !c.restricted && ParseInt(e.data).Some? && ParseInt(e.data).value != 0
    ensures r.Some? ==> r.value.id == ParseInt(e.data).value && r.value.patch == StatusPatch(c.status)
  {
    if e.Drop? && !c.restricted then
      match ParseInt(e.data)
      case Some(id) => if id != 0 then Some(Move(id, StatusPatch(c.status))) else None
      case None => None
    else None
  }

  /** The column after a run of events. */
  function Run(c: Column, events: seq<DragEvent>): (r: Column)
    ensures r.status == c.status && r.restricted == c.restricted
    decreases |events|
  {
    if |events| == 0 then c else Run(Handle(c, events[0]), events[1..])
  }

  /** A restricted column never shows the hover highlight. */
  predicate Calm(c: Column) {
    c.restricted ==> !c.draggingOver
  }

  /**
   No run of events lights up a restricted column that starts calm, so its
   "Cannot drop" indicator (hovering and restricted at once) never shows.
   */
  lemma {:induction false} RunKeepsCalm(c: Column, events: seq<DragEvent>)
    requires Calm(c)
    ensures Calm(Run(c, events))
    decreases |events|
  {
    if |events| > 0 {
      RunKeepsCalm(Handle(c, events[0]), events[1..]);
    }
  }

  /** Every column of the board starts calm, so none ever shows the refusal indicator. */
  lemma BoardStaysCalm(k: nat, events: seq<DragEvent>)
    requires k < |BOARD|
    ensures !(Run(BOARD[k], events).draggingOver && BOARD[k].restricted)
  {
    RunKeepsCalm(BOARD[k], events);
  }

  /** The closed column refuses every drop; the others accept a well-formed one. */
  lemma BoardAccepts(k: nat, data: string)
    requires k < |BOARD|
    ensures Request(BOARD[k], Drop(data)).Some? <==>
      BOARD[k].status != CLOSED && ParseInt(data).Some? && ParseInt(data).value != 0
  {
  }

  /** The ticket collection after a drop on `c`, as the dashboard's update handler applies it. */
  function DropOnBoard(tickets: seq<Ticket>, c: Column, data: string, now: int): (r: seq<Ticket>)
    ensures |r| == |tickets|
    ensures Request(c, Drop(data)).None? ==> r == tickets
    ensures forall i :: 0 <= i < |r| ==> r[i].id == tickets[i].id
    ensures Request(c, Drop(data)).Some? ==> forall i :: 0 <= i < |r| ==>
      if tickets[i].id == ParseInt(data).value
      then r[i] == tickets[i].(status := c.status, updatedAt := now)
      else r[i] == tickets[i]
  {
    match Request(c, Drop(data))
    case None => tickets
    case Some(m) =>
      assert forall i :: 0 <= i < |tickets| ==> Apply(tickets[i], m.patch, now) == tickets[i].(status := c.status, updatedAt := now);
      Update(tickets, m.id, m.patch, now)
  }

  /** The closed column leaves the collection exactly as it was, whatever is dropped. */
  lemma RestrictedDropIgnored(tickets: seq<Ticket>, data: string, now: int)
    ensures DropOnBoard(tickets, BOARD[3], data, now) == tickets
  {
  }

  // ------------------------------------------------------------- badges

  /** The per-priority counts of a column. */
  datatype PriorityStats = PriorityStats(critical: nat, high: nat, medium: nat, low: nat)

  function ColumnPriorityStats(tickets: seq<Ticket>): (st: PriorityStats)
    ensures st.critical <= |tickets| && st.high <= |tickets|
    ensures st.medium <= |tickets| && st.low <= |tickets|
    ensures st.critical > 0 <==> exists t :: t in tickets && t.priority == CRITICAL
    ensures st.high > 0 <==> exists t :: t in tickets && t.priority == HIGH
    ensures st.medium > 0 <==> exists t :: t in tickets && t.priority == MEDIUM
    ensures st.low > 0 <==> exists t :: t in tickets && t.priority == LOW
  {
    CountPositive(tickets, HasPriority(CRITICAL));
    CountPositive(tickets, HasPriority(HIGH));
    CountPositive(tickets, HasPriority(MEDIUM));
    CountPositive(tickets, HasPriority(LOW));
    PriorityStats(
      Count(tickets, HasPriority(CRITICAL)),
      Count(tickets, HasPriority(HIGH)),
      Count(tickets, HasPriority(MEDIUM)),
      Count(tickets, HasPriority(LOW)))
  }

  /** An empty column counts nothing. */
  lemma PriorityStatsEmpty()
    ensures ColumnPriorityStats([]) == PriorityStats(0, 0, 0, 0)
  {
  }

  /** A single ticket counts once, under its own priority, and nowhere else. */
  lemma PriorityStatsOne(t: Ticket)
    ensures ColumnPriorityStats([t]) == PriorityStats(
              if t.priority == CRITICAL then 1 else 0,
              if t.priority == HIGH then 1 else 0,
              if t.priority == MEDIUM then 1 else 0,
              if t.priority == LOW then 1 else 0)
  {
    assert [t][1..] == [];
  }

  /**
   Each count is additive over concatenation; with the two lemmas above this
   fixes every count of every column, one ticket at a time.
   */
  lemma {:induction false} PriorityStatsAppend(a: seq<Ticket>, b: seq<Ticket>)
    ensures ColumnPriorityStats(a + b).critical == ColumnPriorityStats(a).critical + ColumnPriorityStats(b).critical
    ensures ColumnPriorityStats(a + b).high == ColumnPriorityStats(a).high + ColumnPriorityStats(b).high
    ensures ColumnPriorityStats(a + b).medium == ColumnPriorityStats(a).medium + ColumnPriorityStats(b).medium
    ensures ColumnPriorityStats(a + b).low == ColumnPriorityStats(a).low + ColumnPriorityStats(b).low
  {
    CountAppend(a, b, HasPriority(CRITICAL));
    CountAppend(a, b, HasPriority(HIGH));
    CountAppend(a, b, HasPriority(MEDIUM));
    CountAppend(a, b, HasPriority(LOW));
  }

  /**
   The dashboard's critical figure is the critical count a column would show
   for the whole collection, so it inherits the three lemmas above.
   */
  lemma CriticalFigure(tickets: seq<Ticket>, now: int)
    ensures ComputeStats(tickets, now).critical == ColumnPriorityStats(tickets).critical
  {
  }

  predicate AllKnownPriority(s: seq<Ticket>) {
    forall i :: 0 <= i < |s| ==> KnownPriority(s[i].priority)
  }

  /** The four priority counts add up to the column size when every priority is one of the four. */
  lemma {:induction false} PriorityStatsAddUp(tickets: seq<Ticket>)
    requires AllKnownPriority(tickets)
    ensures var st := ColumnPriorityStats(tickets);
            st.critical + st.high + st.medium + st.low == |tickets|
  {
    PriorityCountsAddUp(tickets);
  }

  /** The four priority counts of any collection whose priorities are all known sum to its size. */
  lemma {:induction false} PriorityCountsAddUp(tickets: seq<Ticket>)
    requires AllKnownPriority(tickets)
    ensures Count(tickets, HasPriority(CRITICAL)) + Count(tickets, HasPriority(HIGH))
            + Count(tickets, HasPriority(MEDIUM)) + Count(tickets, HasPriority(LOW)) == |tickets|
  {
    if |tickets| > 0 {
      PriorityCountsAddUp(tickets[1..]);
    }
  }

  /** The column's overdue badge; it uses the same test as the dashboard statistic. */
  function OverdueCount(tickets: seq<Ticket>, now: int): (n: nat)
    ensures n <= |tickets|
    ensures n == ComputeStats(tickets, now).overdue
  {
    Count(tickets, Overdue(now))
  }

  /** The resolved and closed columns never count an overdue ticket. */
  lemma FinishedColumnNotOverdue(sorted: seq<Ticket>, status: string, now: int)
    requires status == RESOLVED || status == CLOSED
    ensures OverdueCount(Bucket(sorted, status), now) == 0
  {
    var b := Bucket(sorted, status);
    assert forall i :: 0 <= i < |b| ==> b[i] in sorted && b[i].status == status;
    CountNone(b, Overdue(now));
  }

  /** The column badges shown beside its title. */
  datatype Badge = CriticalBadge(n: nat) | OverdueBadge(n: nat) | HighBadge(n: nat)

  /**
   The badges of a column of `size` tickets with priority counts `st` and
   `overdue` overdue tickets: none for an empty or restricted column;
   otherwise critical, overdue and high, each only when its count is positive.
   */
  function Badges(c: Column, size: nat, st: PriorityStats, overdue: nat): (r: seq<Badge>)
    ensures size == 0 || c.restricted ==> r == []
    ensures CriticalBadge(st.critical) in r <==> size > 0 && !c.restricted && st.critical > 0
    ensures OverdueBadge(overdue) in r <==> size > 0 && !c.restricted && overdue > 0
    ensures HighBadge(st.high) in r <==> size > 0 && !c.restricted && st.high > 0
    ensures forall b :: b in r ==> b.n > 0
    ensures forall b :: b in r ==> b in [CriticalBadge(st.critical), OverdueBadge(overdue), HighBadge(st.high)]
    ensures forall i, j :: 0 <= i < j < |r| ==> Rank(r[i]) < Rank(r[j])
  {
    if size == 0 || c.restricted then []
    else
      var a, b, d := Shown(CriticalBadge(st.critical)), Shown(OverdueBadge(overdue)), Shown(HighBadge(st.high));
      assert forall x :: x in a + b + d <==> x in a || x in b || x in d;
      assert forall i :: 0 <= i < |a| ==> Rank(a[i]) == 0;
      assert forall i :: 0 <= i < |b| ==> Rank(b[i]) == 1;
      assert forall i :: 0 <= i < |d| ==> Rank(d[i]) == 2;
      a + b + d
  }

  /** Where a badge sits in the header: critical first, then overdue, then high. */
  function Rank(b: Badge): nat {
    match b
    case CriticalBadge(_) => 0
    case OverdueBadge(_) => 1
    case HighBadge(_) => 2
  }

  /** The badges the column header shows for its tickets at time `now`. */
  function ColumnBadges(c: Column, tickets: seq<Ticket>, now: int): seq<Badge> {
    Badges(c, |tickets|, ColumnPriorityStats(tickets), OverdueCount(tickets, now))
  }

  /** A badge is shown only when its count is positive. */
  function Shown(b: Badge): (r: seq<Badge>)
    ensures forall x :: x in r <==> x == b && b.n > 0
  {
    if b.n > 0 then [b] else []
  }
}

=== FILE: form.dfy ===
/**
 The ticket editor: the form state seeded from an existing ticket (or the
 defaults for a new one), validation with its four messages, the change
 handler that clears a field's error, and the normalisation applied on a
 valid submit (hours parsed, the tag text split on commas).
 */
module TicketForm {
  import opened Wrappers
  import opened Seqs
  import opened Text
  import opened Tickets

  /** The form's editable fields, named as in the form state. */
  datatype FormField =
    | TitleField | DescriptionField | PriorityField | AssigneeField | DueDateField
    | StatusField | CustomerNameField | EstimatedHoursField | TagsField

  /**
   The form state. Every field is text except the due date, which the date
   input holds as a day (the UTC midnight that starts it) or nothing.
   */
  datatype FormData = FormData(
    title: string,
    description: string,
    priority: string,
    assignee: string,
    dueDate: Option<int>,
    status: string,
    customerName: string,
    estimatedHours: string,
    tags: string)

  /** A value the change handler writes into one field. */
  datatype Input = TextInput(text: string) | DateInput(day: Option<int>)

  const TITLE_REQUIRED := "Title is required"
  const TITLE_TOO_SHORT := "Title must be at least 3 characters"
  const DESCRIPTION_REQUIRED := "Description is required"
  const DESCRIPTION_TOO_SHORT := "Description must be at least 10 characters"
  const DUE_DATE_PAST := "Due date cannot be in the past"
  const HOURS_INVALID := "Please enter a valid number of hours"

  /** The separator the form puts between tags when it shows them as text. */
  const TAG_SEPARATOR := ", "

  /** The tag list shown as one line of text. */
  function TagsText(tags: seq<string>): string {
    Join(tags, TAG_SEPARATOR)
  }

  /** The hours shown in the form: a stored 0 is falsy and shows as empty. */
  function HoursText(hours: Option<int>): (r: string)
    ensures hours.Some? && hours.value != 0 ==> ParseInt(r) == hours
    ensures hours.None? || hours == Some(0) ==> r == ""
  {
    if hours.Some? && hours.value != 0 then IntToString(hours.value) else ""
  }

  /**
   The initial form state. A field that is empty or missing on the ticket
   falls back to its default, exactly as `ticket?.x || default` does: an
   empty priority becomes medium and an empty status becomes open.
   */
  function Initial(ticket: Option<Ticket>): (f: FormData)
    ensures ticket.None? ==> f == FormData("", "", MEDIUM, "", None, OPEN, "", "", "")
    ensures ticket.Some? ==>
      var t := ticket.value;
      && f.title == t.title && f.description == t.description
      && f.priority == (if t.priority == "" then MEDIUM else t.priority)
      && f.status == (if t.status == "" then OPEN else t.status)
      && f.assignee == t.assignee.GetOr("") && f.customerName == t.customerName.GetOr("")
      && (f.dueDate.Some? <==> t.dueDate.Some?)
      && (t.dueDate.Some? ==> f.dueDate.value <= t.dueDate.value < f.dueDate.value + DAY_MS)
      && f.tags == TagsText(t.tags)
    ensures ticket.Some? ==> f.estimatedHours == HoursText(ticket.value.estimatedHours)
    ensures ticket.Some? && ticket.value.dueDate.Some? ==> f.dueDate == Some(DayOf(ticket.value.dueDate.value))
  {
    match ticket
    case None => FormData("", "", MEDIUM, "", None, OPEN, "", "", "")
    case Some(t) =>
      FormData(
        t.title,
        t.description,
        if t.priority == "" then MEDIUM else t.priority,
        t.assignee.GetOr(""),
        if t.dueDate.Some? then Some(DayOf(t.dueDate.value)) else None,
        if t.status == "" then OPEN else t.status,
        t.customerName.GetOr(""),
        HoursText(t.estimatedHours),
        TagsText(t.tags))
  }

  /** Text that `trim()` reduces to nothing. */
  predicate IsBlank(s: string) {
    Trim(s) == ""
  }

  /**
   Text that `isNaN` accepts as a number: an optional sign, then digits with
   an optional fractional part, with at least one digit overall.
   */
  predicate IsNumberText(s: string) {
    var body := s[SignLen(s)..];
    var k := DigitRun(body);
    var frac := body[k..];
    (frac == "" && k > 0)
    || (|frac| > 1 && frac[0] == '.' && AllDigits(frac[1..]))
    || (|frac| == 1 && frac[0] == '.' && k > 0)
  }

  /** A number text whose value is below zero: a minus sign and a nonzero digit (`-0` is not below zero). */
  predicate IsNegativeText(s: string) {
    IsNumberText(s) && |s| > 0 && s[0] == '-' && exists i :: 1 <= i < |s| && IsDigit(s[i]) && s[i] != '0'
  }

  /** The hours text the validator rejects: present, and not a number or below zero. */
  predicate BadHours(s: string) {
    s != "" && (!IsNumberText(s) || IsNegativeText(s))
  }

  function HoursError(hours: string): (m: Option<string>)
    ensures m.Some? <==> BadHours(hours)
    ensures m.Some? ==> m.value == HOURS_INVALID
  {
    if BadHours(hours) then Some(HOURS_INVALID) else None
  }

  /** Hours text the validator lets through never parses to a value below zero. */
  lemma AcceptedHoursNonNegative(s: string)
    requires s != "" && !BadHours(s)
    ensures ParseInt(s).None? || ParseInt(s).value >= 0
  {
    var body := s[SignLen(s)..];
    var k := DigitRun(body);
    if SignLen(s) == 0 && k > 0 {
      assert body[..k][0] == s[0];
    }
    assert !IsSpace(s[0]);
    assert SkipSpace(s) == s;
    if SignLen(s) == 1 && s[0] == '-' && k > 0 {
      forall j | 0 <= j < k
        ensures body[..k][j] == '0'
      {
        assert body[..k][j] == s[1 + j];
      }
      ZerosValue(body[..k]);
    }
  }

  /** The hours the form shows for a ticket pass the hours check exactly when they are not below zero. */
  lemma HoursTextAccepted(h: Option<int>)
    ensures !BadHours(HoursText(h)) <==> h.None? || h.value >= 0
  {
    if h.Some? && h.value != 0 {
      var r := HoursText(h);
      var n := h.value;
      if n > 0 {
        var d := NatToString(n);
        assert r == d;
        DigitRunOf(d, "");
        assert d + "" == d;
        assert SignLen(r) == 0 && r[SignLen(r)..] == d;
        assert IsNumberText(r);
      } else {
        var d := NatToString(-n);
        assert r == "-" + d;
        DigitRunOf(d, "");
        assert d + "" == d;
        assert SignLen(r) == 1 && r[SignLen(r)..] == d;
        assert IsNumberText(r);
        assert r[1] == d[0];
        assert 1 < |r| && IsDigit(r[1]) && r[1] != '0';
      }
    }
  }

  function TitleError(title: string): (m: Option<string>)
    ensures m.Some? <==> IsBlank(title) || |title| < 3
    ensures m.Some? ==> m.value == (if IsBlank(title) then TITLE_REQUIRED else TITLE_TOO_SHORT)
  {
    if IsBlank(title) then Some(TITLE_REQUIRED)
    else if |title| < 3 then Some(TITLE_TOO_SHORT)
    else None
  }

  function DescriptionError(description: string): (m: Option<string>)
    ensures m.Some? <==> IsBlank(description) || |description| < 10
    ensures m.Some? ==> m.value == (if IsBlank(description) then DESCRIPTION_REQUIRED else DESCRIPTION_TOO_SHORT)
  {
    if IsBlank(description) then Some(DESCRIPTION_REQUIRED)
    else if |description| < 10 then Some(DESCRIPTION_TOO_SHORT)
    else None
  }

  /** The message the validator records for one field, if any. */
  function FieldError(f: FormData, field: FormField, todayStart: int): Option<string> {
    match field
    case TitleField => TitleError(f.title)
    case DescriptionField => DescriptionError(f.description)
    case DueDateField =>
      if f.dueDate.Some? && f.dueDate.value < todayStart then Some(DUE_DATE_PAST) else None
    case EstimatedHoursField => HoursError(f.estimatedHours)
    case _ => None
  }

  /** The fields the validator looks at. */
  const CHECKED := {TitleField, DescriptionField, DueDateField, EstimatedHoursField}

  /**
   The validator. `todayStart` is the start of the current day; a due date
   before it is in the past. Only the title, description, due date and hours
   are ever flagged, each with the message its check gives.
   */
  function Validate(f: FormData, todayStart: int): (errors: map<FormField, string>)
    ensures errors.Keys <= CHECKED
    ensures forall k :: k in errors <==> k in CHECKED && FieldError(f, k, todayStart).Some?
    ensures forall k :: k in errors ==> errors[k] == FieldError(f, k, todayStart).value
  {
    map k | k in CHECKED && FieldError(f, k, todayStart).Some? :: FieldError(f, k, todayStart).value
  }

  /** The title check: blank is missing, otherwise fewer than 3 raw characters is too short. */
  lemma TitleCheck(f: FormData, todayStart: int)
    ensures var errors := Validate(f, todayStart);
      && (TitleField in errors <==> IsBlank(f.title) || |f.title| < 3)
      && (TitleField in errors ==>
            errors[TitleField] == (if IsBlank(f.title) then TITLE_REQUIRED else TITLE_TOO_SHORT))
  {
    assert FieldError(f, TitleField, todayStart) == TitleError(f.title);
  }

  /** The description check: blank is missing, otherwise fewer than 10 raw characters is too short. */
  lemma DescriptionCheck(f: FormData, todayStart: int)
    ensures var errors := Validate(f, todayStart);
      && (DescriptionField in errors <==> IsBlank(f.description) || |f.description| < 10)
      && (DescriptionField in errors ==>
            errors[DescriptionField] == (if IsBlank(f.description) then DESCRIPTION_REQUIRED else DESCRIPTION_TOO_SHORT))
  {
    assert FieldError(f, DescriptionField, todayStart) == DescriptionError(f.description);
  }

  /** The due-date check: only a present day before today is flagged. */
  lemma DueDateCheck(f: FormData, todayStart: int)
    ensures var errors := Validate(f, todayStart);
      && (DueDateField in errors <==> f.dueDate.Some? && f.dueDate.value < todayStart)
      && (DueDateField in errors ==> errors[DueDateField] == DUE_DATE_PAST)
  {
    assert DueDateField in CHECKED;
  }

  /** The hours check: only present text that is not a number, or is below zero, is flagged. */
  lemma HoursCheck(f: FormData, todayStart: int)
    ensures var errors := Validate(f, todayStart);
      && (EstimatedHoursField in errors <==> BadHours(f.estimatedHours))
      && (EstimatedHoursField in errors ==> errors[EstimatedHoursField] == HOURS_INVALID)
  {
    assert FieldError(f, EstimatedHoursField, todayStart) == HoursError(f.estimatedHours);
  }

  /** The form may be submitted when the validator flags nothing. */
  predicate IsValid(f: FormData, todayStart: int) {
    |Validate(f, todayStart)| == 0
  }

  /** The validity conditions, stated field by field. */
  lemma ValidIff(f: FormData, todayStart: int)
    ensures IsValid(f, todayStart) <==>
      && !IsBlank(f.title) && |f.title| >= 3
      && !IsBlank(f.description) && |f.description| >= 10
      && (f.dueDate.Some? ==> f.dueDate.value >= todayStart)
      && !BadHours(f.estimatedHours)
  {
    TitleCheck(f, todayStart);
    DescriptionCheck(f, todayStart);
    DueDateCheck(f, todayStart);
    HoursCheck(f, todayStart);
    var e := Validate(f, todayStart);
    if |e| != 0 {
      var k :| k in e;
    }
    if TitleField in e || DescriptionField in e || DueDateField in e || EstimatedHoursField in e {
      assert |e| != 0;
    }
  }

  /**
   The title rules by cases: nothing but spaces is missing; otherwise the
   length counts raw characters, so spaces around a short title make it pass.
   */
  lemma TitleRules(title: string, visible: nat)
    requires visible < |title| && !IsSpace(title[visible])
    ensures TitleError(title) == (if |title| < 3 then Some(TITLE_TOO_SHORT) else None)
    ensures TitleError(title + " ") == (if |title| < 2 then Some(TITLE_TOO_SHORT) else None)
  {
    assert (title + " ")[visible] == title[visible];
  }

  /** A title of spaces only is reported as missing, however long it is. */
  lemma BlankTitle(title: string)
    requires forall k :: 0 <= k < |title| ==> IsSpace(title[k])
    ensures TitleError(title) == Some(TITLE_REQUIRED)
  {
  }

  /** Cleans the pieces of the tag text: each is trimmed and empty ones dropped. */
  function CleanTags(pieces: seq<string>): (tags: seq<string>)
    ensures |tags| <= |pieces|
  {
    if |pieces| == 0 then []
    else
      var t := Trim(pieces[0]);
      var rest := CleanTags(pieces[1..]);
      if t == "" then rest else [t] + rest
  }

  /** Cleaned pieces without commas are well-formed tags. */
  lemma {:induction false} CleanTagsGood(pieces: seq<string>)
    requires forall j :: 0 <= j < |pieces| ==> ',' !in pieces[j]
    ensures forall i :: 0 <= i < |CleanTags(pieces)| ==> GoodTag(CleanTags(pieces)[i])
  {
    if |pieces| > 0 {
      CleanTagsGood(pieces[1..]);
      TrimKeepsOut(pieces[0], ',');
    }
  }

  /**
   The tag text as a list: split on commas, each piece trimmed, empty pieces
   dropped. Every tag is non-empty, trimmed and free of commas.
   */
  function ParseTags(s: string): (tags: seq<string>)
    ensures s == "" ==> tags == []
    ensures forall i :: 0 <= i < |tags| ==> GoodTag(tags[i])
  {
    if s == "" then []
    else
      CleanTagsGood(Split(s, ','));
      CleanTags(Split(s, ','))
  }

  /** Cleaning pieces one after another is cleaning them together. */
  lemma {:induction false} CleanTagsAppend(p: seq<string>, q: seq<string>)
    ensures CleanTags(p + q) == CleanTags(p) + CleanTags(q)
  {
    if |p| == 0 {
      assert p + q == q;
    } else {
      var x, tail := p[0], p[1..];
      calc {
        CleanTags(p + q);
        { assert p + q == [x] + (tail + q); }
        CleanTags([x] + (tail + q));
        { CleanStep(x, tail + q); }
        if Trim(x) == "" then CleanTags(tail + q) else [Trim(x)] + CleanTags(tail + q);
        { CleanTagsAppend(tail, q); }
        if Trim(x) == "" then CleanTags(tail) + CleanTags(q) else [Trim(x)] + (CleanTags(tail) + CleanTags(q));
        { assert p == [x] + tail; CleanStep(x, tail); }
        CleanTags(p) + CleanTags(q);
      }
    }
  }

  /** One step of cleaning: the first piece, trimmed, is kept unless it is empty. */
  lemma CleanStep(x: string, rest: seq<string>)
    ensures CleanTags([x] + rest) == if Trim(x) == "" then CleanTags(rest) else [Trim(x)] + CleanTags(rest)
  {
    assert ([x] + rest)[1..] == rest;
  }

  /** The empty text needs no special case: its one empty piece is dropped. */
  lemma ParseTagsClean(s: string)
    ensures ParseTags(s) == CleanTags(Split(s, ','))
  {
    if s == "" {
      assert Split(s, ',') == [""];
    }
  }

  /** The tags of text with a comma in it are the tags before the comma followed by the tags after it. */
  lemma ParseTagsAppend(a: string, b: string)
    ensures ParseTags(a + "," + b) == ParseTags(a) + ParseTags(b)
  {
    ParseTagsClean(a + "," + b);
    ParseTagsClean(a);
    ParseTagsClean(b);
    SplitAppend(a, ',', b);
    CleanTagsAppend(Split(a, ','), Split(b, ','));
  }

  /** Text without a comma is one tag, trimmed, or none when it is blank. */
  lemma ParseTagsPiece(a: string)
    requires ',' !in a
    ensures ParseTags(a) == if Trim(a) == "" then [] else [Trim(a)]
  {
    ParseTagsClean(a);
    SplitWhole(a, ',');
  }

  /** A tag the form can show and read back unchanged. */
  predicate GoodTag(t: string) {
    t != "" && IsTrimmed(t) && ',' !in t
  }

  /** Each tag behind the space of the separator. */
  function Padded(tags: seq<string>): (r: seq<string>)
    ensures |r| == |tags|
    ensures forall i :: 0 <= i < |tags| && ',' !in tags[i] ==> ',' !in r[i]
  {
    if |tags| == 0 then [] else [" " + tags[0]] + Padded(tags[1..])
  }

  /** The pieces that splitting the tag text on bare commas yields. */
  function Spaced(tags: seq<string>): seq<string>
    requires |tags| > 0
  {
    [tags[0]] + Padded(tags[1..])
  }

  lemma JoinCons(a: string, rest: seq<string>, sep: string)
    ensures Join([a] + rest, sep) == if |rest| == 0 then a else a + sep + Join(rest, sep)
  {
    assert ([a] + rest)[1..] == rest;
  }

  lemma {:induction false} JoinSpaced(tags: seq<string>)
    requires |tags| > 0
    ensures TagsText(tags) == Join(Spaced(tags), ",")
    decreases |tags|
  {
    var rest := tags[1..];
    JoinCons(tags[0], Padded(rest), ",");
    if |rest| > 0 {
      JoinSpaced(rest);
      JoinPadded(rest);
      assert TagsText(tags) == tags[0] + ", " + TagsText(rest);
    }
  }

  lemma JoinPadded(tags: seq<string>)
    requires |tags| > 0
    ensures Join(Padded(tags), ",") == " " + Join(Spaced(tags), ",")
  {
    var p := Padded(tags[1..]);
    assert Padded(tags) == [" " + tags[0]] + p;
    JoinLeadingSpace(tags[0], p);
  }

  /** A space in front of the first part is a space in front of the joined text. */
  lemma JoinLeadingSpace(a: string, p: seq<string>)
    ensures Join([" " + a] + p, ",") == " " + Join([a] + p, ",")
  {
    JoinCons(" " + a, p, ",");
    JoinCons(a, p, ",");
    if |p| > 0 {
      var j := Join(p, ",");
      assert (" " + a) + "," + j == " " + (a + "," + j);
    }
  }

  lemma CleanCons(x: string, rest: seq<string>)
    requires Trim(x) != ""
    ensures CleanTags([x] + rest) == [Trim(x)] + CleanTags(rest)
  {
    assert ([x] + rest)[1..] == rest;
  }

  lemma CleanPaddedCons(t: string, rest: seq<string>)
    requires GoodTag(t)
    ensures CleanTags([" " + t] + rest) == [t] + CleanTags(rest)
  {
    TrimLeadingSpace(t);
    CleanCons(" " + t, rest);
  }

  lemma {:induction false} CleanPadded(tags: seq<string>)
    requires forall i :: 0 <= i < |tags| ==> GoodTag(tags[i])
    ensures CleanTags(Padded(tags)) == tags
    decreases |tags|
  {
    if |tags| > 0 {
      var rest := tags[1..];
      CleanPadded(rest);
      assert Padded(tags) == [" " + tags[0]] + Padded(rest);
      CleanPaddedCons(tags[0], Padded(rest));
      assert tags == [tags[0]] + rest;
    }
  }

  lemma CleanGoodCons(t: string, rest: seq<string>)
    requires GoodTag(t)
    ensures CleanTags([t] + rest) == [t] + CleanTags(rest)
  {
    assert Trim(t) == t;
    CleanCons(t, rest);
  }

  lemma CleanSpaced(tags: seq<string>)
    requires |tags| > 0 && forall i :: 0 <= i < |tags| ==> GoodTag(tags[i])
    ensures CleanTags(Spaced(tags)) == tags
  {
    var rest := tags[1..];
    CleanGoodCons(tags[0], Padded(rest));
    CleanPadded(rest);
    assert tags == [tags[0]] + rest;
  }

  /** Showing well-formed tags as text and reading the text back gives the same tags. */
  lemma {:induction false} TagsRoundTrip(tags: seq<string>)
    requires forall i :: 0 <= i < |tags| ==> GoodTag(tags[i])
    ensures ParseTags(TagsText(tags)) == tags
  {
    if |tags| > 0 {
      JoinSpaced(tags);
      var sp := Spaced(tags);
      assert forall i :: 0 <= i < |sp| ==> ',' !in sp[i];
      SplitJoin(sp, ',');
      CleanSpaced(tags);
      assert TagsText(tags) != "" by {
        assert |tags[0]| > 0;
        JoinHead(sp, ",");
      }
    }
  }

  lemma JoinHead(parts: seq<string>, sep: string)
    requires |parts| > 0
    ensures |Join(parts, sep)| >= |parts[0]|
  {
  }

  /** Parsing is idempotent through the text: the parsed tags read back as themselves. */
  lemma ParseTagsStable(s: string)
    ensures ParseTags(TagsText(ParseTags(s))) == ParseTags(s)
  {
    TagsRoundTrip(ParseTags(s));
  }

  /**
   The data handed to the save callback: the hours text parsed as an integer
   (empty is none), the tag text parsed into a list (empty is none), the rest
   as entered.
   */
  function Normalize(f: FormData): (d: Draft)
    ensures d.title == f.title && d.description == f.description
    ensures d.priority == f.priority && d.status == f.status
    ensures d.assignee == f.assignee && d.customerName == f.customerName
    ensures d.dueDate == f.dueDate
    ensures f.estimatedHours == "" ==> d.estimatedHours.None?
    ensures f.estimatedHours != "" ==> d.estimatedHours == ParseInt(f.estimatedHours)
    ensures d.tags == ParseTags(f.tags)
    ensures forall i :: 0 <= i < |d.tags| ==> GoodTag(d.tags[i])
  {
    Draft(
      f.title, f.description, f.priority, f.assignee, f.dueDate, f.status, f.customerName,
      if f.estimatedHours == "" then None else ParseInt(f.estimatedHours),
      ParseTags(f.tags))
  }

  /** Editing a ticket and saving it unchanged keeps its tags and hours. */
  lemma EditKeepsTags(t: Ticket)
    requires forall i :: 0 <= i < |t.tags| ==> GoodTag(t.tags[i])
    requires t.estimatedHours.None? || t.estimatedHours.value != 0
    ensures Normalize(Initial(Some(t))).tags == t.tags
    ensures Normalize(Initial(Some(t))).estimatedHours == t.estimatedHours
  {
    TagsRoundTrip(t.tags);
  }

  /** A valid submit never hands on hours below zero. */
  lemma ValidHoursNonNegative(f: FormData, todayStart: int)
    requires IsValid(f, todayStart)
    ensures Normalize(f).estimatedHours.None? || Normalize(f).estimatedHours.value >= 0
  {
    HoursCheck(f, todayStart);
    if f.estimatedHours != "" {
      AcceptedHoursNonNegative(f.estimatedHours);
    }
  }

  /** What one submit does: the errors it shows and the draft it hands on, if any. */
  datatype Submission = Submission(errors: map<FormField, string>, sent: Option<Draft>)

  function HandleSubmit(f: FormData, todayStart: int): (r: Submission)
    ensures r.errors == Validate(f, todayStart)
    ensures r.sent.Some? <==> IsValid(f, todayStart)
    ensures r.sent.Some? ==> r.sent.value == Normalize(f)
  {
    var errors := Validate(f, todayStart);
    Submission(errors, if |errors| == 0 then Some(Normalize(f)) else None)
  }

  /** The form and its shown errors. */
  datatype FormState = FormState(data: FormData, errors: map<FormField, string>)

  /** The due date takes a date input and every other field a text input. */
  predicate Fits(field: FormField, value: Input) {
    value.DateInput? <==> field == DueDateField
  }

  function Get(f: FormData, field: FormField): (v: Input)
    ensures Fits(field, v)
  {
    match field
    case TitleField => TextInput(f.title)
    case DescriptionField => TextInput(f.description)
    case PriorityField => TextInput(f.priority)
    case AssigneeField => TextInput(f.assignee)
    case DueDateField => DateInput(f.dueDate)
    case StatusField => TextInput(f.status)
    case CustomerNameField => TextInput(f.customerName)
    case EstimatedHoursField => TextInput(f.estimatedHours)
    case TagsField => TextInput(f.tags)
  }

  function Set(f: FormData, field: FormField, value: Input): (r: FormData)
    requires Fits(field, value)
    ensures Get(r, field) == value
    ensures forall g :: g != field ==> Get(r, g) == Get(f, g)
  {
    match field
    case TitleField => f.(title := value.text)
    case DescriptionField => f.(description := value.text)
    case PriorityField => f.(priority := value.text)
    case AssigneeField => f.(assignee := value.text)
    case DueDateField => f.(dueDate := value.day)
    case StatusField => f.(status := value.text)
    case CustomerNameField => f.(customerName := value.text)
    case EstimatedHoursField => f.(estimatedHours := value.text)
    case TagsField => f.(tags := value.text)
  }

  /**
   The change handler: writes one field and, when that field shows an error,
   blanks the message; no other field or message changes.
   */
  function HandleChange(s: FormState, field: FormField, value: Input): (r: FormState)
    requires Fits(field, value)
    ensures Get(r.data, field) == value
    ensures forall g :: g != field ==> Get(r.data, g) == Get(s.data, g)
    ensures r.errors.Keys == s.errors.Keys
    ensures field in r.errors ==> r.errors[field] == ""
    ensures forall g :: g in s.errors && g != field ==> r.errors[g] == s.errors[g]
  {
    var errors := if field in s.errors && s.errors[field] != "" then s.errors[field := ""] else s.errors;
    FormState(Set(s.data, field, value), errors)
  }

  /** Changing a field to the value it already holds changes nothing but a shown message. */
  lemma ChangeToSame(s: FormState, field: FormField)
    ensures HandleChange(s, field, Get(s.data, field)).data == s.data
  {
    var r := HandleChange(s, field, Get(s.data, field));
    assert forall g :: Get(r.data, g) == Get(s.data, g);
    GetDetermines(r.data, s.data);
  }

  /** Two forms that agree on every field are equal. */
  lemma GetDetermines(a: FormData, b: FormData)
    requires forall g :: Get(a, g) == Get(b, g)
    ensures a == b
  {
    assert Get(a, TitleField) == Get(b, TitleField);
    assert Get(a, DescriptionField) == Get(b, DescriptionField);
    assert Get(a, PriorityField) == Get(b, PriorityField);
    assert Get(a, AssigneeField) == Get(b, AssigneeField);
    assert Get(a, DueDateField) == Get(b, DueDateField);
    assert Get(a, StatusField) == Get(b, StatusField);
    assert Get(a, CustomerNameField) == Get(b, CustomerNameField);
    assert Get(a, EstimatedHoursField) == Get(b, EstimatedHoursField);
    assert Get(a, TagsField) == Get(b, TagsField);
  }
}

=== FILE: login.dfy ===
/**
 The mock login form: any username and password that are both non-empty
 are accepted, and a profile is made up from the username alone.
 */
module LoginForm {
  import opened Wrappers
  import opened Text

  datatype Credentials = Credentials(username: string, password: string)

  /** The two inputs, named as in the form state. */
  datatype LoginField = Username | Password

  /** The form's values and the error line above it (empty when none shows). */
  datatype LoginState = LoginState(form: Credentials, error: string)

  /** The user record handed to the login callback. */
  datatype Profile = Profile(id: int, username: string, email: string, role: string, avatar: string)

  const FILL_ALL := "Please fill in all fields"
  const EMAIL_DOMAIN := "@ticketflow.com"
  const AVATAR_PREFIX := "https://ui-avatars.com/api/?name="
  const AVATAR_SUFFIX := "&background=3b82f6&color=white"

  const INITIAL_LOGIN := LoginState(Credentials("", ""), "")

  /** The email made up for a username. */
  function Email(username: string): (e: string)
    ensures |e| == |username| + |EMAIL_DOMAIN|
    ensures e[..|username|] == username && e[|username|..] == EMAIL_DOMAIN
  {
    username + EMAIL_DOMAIN
  }

  /** The username comes back from the email by dropping the fixed domain, so no two usernames share an email. */
  lemma EmailInjective(a: string, b: string)
    requires Email(a) == Email(b)
    ensures a == b
  {
    assert a == Email(a)[..|a|];
  }

  /** The avatar address: the username is put in the query string as is, without encoding. */
  function Avatar(username: string): (url: string)
    ensures Contains(url, "name=" + username)
  {
    var url := AVATAR_PREFIX + username + AVATAR_SUFFIX;
    assert url == "https://ui-avatars.com/api/?" + ("name=" + username) + AVATAR_SUFFIX;
    ContainsMiddle("https://ui-avatars.com/api/?", "name=" + username, AVATAR_SUFFIX);
    url
  }

  /** The profile made up for a username: id 1, role Admin. */
  function MakeProfile(username: string): (p: Profile)
    ensures p.id == 1 && p.username == username && p.role == "Admin"
    ensures p.email == Email(username) && Contains(p.avatar, "name=" + username)
  {
    Profile(1, username, Email(username), "Admin", Avatar(username))
  }

  /** What one submit does: the next state, and the profile passed to the callback if any. */
  datatype LoginOutcome = LoginOutcome(state: LoginState, profile: Option<Profile>)

  /**
   Submitting: an empty username or password shows the error and logs no one
   in; otherwise the error clears and the made-up profile is handed on. No
   other check is made.
   */
  function Submit(s: LoginState): (o: LoginOutcome)
    ensures o.state.form == s.form
    ensures o.profile.Some? <==> s.form.username != "" && s.form.password != ""
    ensures o.profile.None? ==> o.state.error == FILL_ALL
    ensures o.profile.Some? ==> o.state.error == "" && o.profile.value == MakeProfile(s.form.username)
  {
    if s.form.username == "" || s.form.password == "" then
      LoginOutcome(s.(error := FILL_ALL), None)
    else
      LoginOutcome(s.(error := ""), Some(MakeProfile(s.form.username)))
  }

  /** The "3+ chars" hint is not enforced: a one-letter username, or one of spaces, logs in. */
  lemma ShortUsernameAccepted(u: string, password: string)
    requires |u| >= 1 && password != ""
    ensures Submit(LoginState(Credentials(u, password), "")).profile == Some(MakeProfile(u))
    ensures Submit(LoginState(Credentials([u[0]], password), "")).profile.Some?
  {
  }

  /** Typing into one input: only that value changes and the error line clears. */
  function InputChange(s: LoginState, field: LoginField, value: string): (r: LoginState)
    ensures r.error == ""
    ensures field == Username ==> r.form == Credentials(value, s.form.password)
    ensures field == Password ==> r.form == Credentials(s.form.username, value)
  {
    var form := match field
      case Username => s.form.(username := value)
      case Password => s.form.(password := value);
    LoginState(form, "")
  }

  /** Filling both inputs from the initial state and submitting always logs in. */
  lemma FillThenSubmit(u: string, password: string)
    requires u != "" && password != ""
    ensures var s := InputChange(InputChange(INITIAL_LOGIN, Username, u), Password, password);
            Submit(s).profile == Some(MakeProfile(u))
  {
  }
}

=== FILE: query.dfy ===
/**
 The dashboard's derived view, recomputed on every render: search and
 filter, then sort, then split into the four status columns. Statistics and
 the assignee list are computed from the whole, unfiltered collection.
 */
module Query {
  import opened Wrappers
  import opened Seqs
  import opened Text
  import opened Tickets

  /** The sentinel every filter drop-down starts at. */
  const ALL := "all"

  /** The search box and the three filter drop-downs. */
  datatype Criteria = Criteria(search: string, status: string, priority: string, assignee: string)

  // --------------------------------------------------------------- filter

  /**
   Case-insensitive substring search over title, description and customer
   name; a ticket without a customer name matches only through the other two.
   */
  predicate MatchesSearch(t: Ticket, query: string) {
    var needle := Lower(query);
    || Contains(Lower(t.title), needle)
    || Contains(Lower(t.description), needle)
    || (t.customerName.Some? && Contains(Lower(t.customerName.value), needle))
  }

  predicate Matches(c: Criteria, t: Ticket) {
    && MatchesSearch(t, c.search)
    && (c.status == ALL || t.status == c.status)
    && (c.priority == ALL || t.priority == c.priority)
    && (c.assignee == ALL || t.assignee == Some(c.assignee))
  }

  function Keep(c: Criteria): Ticket -> bool {
    (t: Ticket) => Matches(c, t)
  }

  /** The filter step: the tickets satisfying every criterion, in their stored order. */
  function FilterTickets(tickets: seq<Ticket>, c: Criteria): (r: seq<Ticket>)
    ensures IsSubseq(r, tickets)
    ensures forall t :: t in r <==> t in tickets && Matches(c, t)
    ensures forall t :: multiset(r)[t] == if Matches(c, t) then multiset(tickets)[t] else 0
  {
    FilterIsSubseq(tickets, Keep(c));
    FilterMultiset(tickets, Keep(c));
    Filter(tickets, Keep(c))
  }

  /** Filtering an already filtered list changes nothing. */
  lemma FilterTicketsIdempotent(tickets: seq<Ticket>, c: Criteria)
    ensures FilterTickets(FilterTickets(tickets, c), c) == FilterTickets(tickets, c)
  {
    FilterIdempotent(tickets, Keep(c));
  }

  /** An empty search with every drop-down on "all" shows every ticket. */
  lemma UnfilteredShowsAll(tickets: seq<Ticket>, c: Criteria)
    requires c.search == "" && c.status == ALL && c.priority == ALL && c.assignee == ALL
    ensures FilterTickets(tickets, c) == tickets
  {
    forall i | 0 <= i < |tickets|
      ensures Matches(c, tickets[i])
    {
      ContainsEmpty(Lower(tickets[i].title));
    }
  }

  /** The search ignores ASCII case on both sides. */
  lemma SearchIgnoresCase(t: Ticket, q: string)
    ensures MatchesSearch(t, q) == MatchesSearch(t, Lower(q))
  {
    LowerIdempotent(q);
  }

  lemma LowerIdempotent(s: string)
    ensures Lower(Lower(s)) == Lower(s)
  {
  }

  // ----------------------------------------------------------------- sort

  /** The sort drop-down's keys. */
  datatype SortField = CreatedAt | UpdatedAt | DueDate | PriorityKey | TitleKey

  datatype Direction = Asc | Desc

  /** `new Date(dueDate)`: a missing (`null`) due date is the epoch. */
  function DueKey(t: Ticket): int {
    t.dueDate.GetOr(0)
  }

  /** `a <= b` on the chosen key: dates as numbers, priority and title as strings. */
  predicate KeyLe(f: SortField, a: Ticket, b: Ticket) {
    match f
    case CreatedAt => a.createdAt <= b.createdAt
    case UpdatedAt => a.updatedAt <= b.updatedAt
    case DueDate => DueKey(a) <= DueKey(b)
    case PriorityKey => LexLe(a.priority, b.priority)
    case TitleKey => LexLe(a.title, b.title)
  }

  /** `a` may come before `b` in the chosen direction. */
  predicate InOrder(f: SortField, d: Direction, a: Ticket, b: Ticket) {
    if d == Asc then KeyLe(f, a, b) else KeyLe(f, b, a)
  }

  predicate SortedBy(f: SortField, d: Direction, s: seq<Ticket>) {
    forall i, j :: 0 <= i < j < |s| ==> InOrder(f, d, s[i], s[j])
  }

  lemma KeyLeTotal(f: SortField, a: Ticket, b: Ticket)
    ensures KeyLe(f, a, b) || KeyLe(f, b, a)
  {
    match f
    case PriorityKey => LexLeTotal(a.priority, b.priority);
    case TitleKey => LexLeTotal(a.title, b.title);
    case _ =>
  }

  lemma KeyLeReflexive(f: SortField, a: Ticket)
    ensures KeyLe(f, a, a)
  {
    match f
    case PriorityKey => LexLeReflexive(a.priority);
    case TitleKey => LexLeReflexive(a.title);
    case _ =>
  }

  lemma KeyLeTransitive(f: SortField, a: Ticket, b: Ticket, c: Ticket)
    requires KeyLe(f, a, b) && KeyLe(f, b, c)
    ensures KeyLe(f, a, c)
  {
    match f
    case PriorityKey => LexLeTransitive(a.priority, b.priority, c.priority);
    case TitleKey => LexLeTransitive(a.title, b.title, c.title);
    case _ =>
  }

  lemma InOrderTransitive(f: SortField, d: Direction, a: Ticket, b: Ticket, c: Ticket)
    requires InOrder(f, d, a, b) && InOrder(f, d, b, c)
    ensures InOrder(f, d, a, c)
  {
    if d == Asc {
      KeyLeTransitive(f, a, b, c);
    } else {
      KeyLeTransitive(f, c, b, a);
    }
  }

  /** A ticket in order before the head of a sorted list is in order before all of it. */
  lemma BeforeHead(f: SortField, d: Direction, x: Ticket, s: seq<Ticket>)
    requires SortedBy(f, d, s) && |s| > 0 && InOrder(f, d, x, s[0])
    ensures SortedBy(f, d, [x] + s)
  {
    var r := [x] + s;
    forall i, j | 0 <= i < j < |r|
      ensures InOrder(f, d, r[i], r[j])
    {
      if i == 0 && j > 1 {
        InOrderTransitive(f, d, x, s[0], s[j - 1]);
      }
    }
  }

  /** Putting the head back in front of a list whose elements all follow it keeps it sorted. */
  lemma HeadBeforeRest(f: SortField, d: Direction, h: Ticket, rest: seq<Ticket>)
    requires SortedBy(f, d, rest)
    requires forall y :: y in rest ==> InOrder(f, d, h, y)
    ensures SortedBy(f, d, [h] + rest)
  {
    var r := [h] + rest;
    forall i, j | 0 <= i < j < |r|
      ensures InOrder(f, d, r[i], r[j])
    {
      if i == 0 {
        assert r[j] in rest;
      }
    }
  }

  /** Inserts `x` into a sorted list at a place that keeps it sorted. */
  function Insert(f: SortField, d: Direction, x: Ticket, s: seq<Ticket>): (r: seq<Ticket>)
    requires SortedBy(f, d, s)
    ensures SortedBy(f, d, r)
    ensures multiset(r) == multiset(s) + multiset{x}
    decreases |s|
  {
    if |s| == 0 then [x]
    else if InOrder(f, d, x, s[0]) then
      BeforeHead(f, d, x, s);
      [x] + s
    else
      KeyLeTotal(f, x, s[0]);
      var rest := Insert(f, d, x, s[1..]);
      HeadFollowers(f, d, x, s, rest);
      assert s == [s[0]] + s[1..];
      [s[0]] + rest
  }

  lemma HeadFollowers(f: SortField, d: Direction, x: Ticket, s: seq<Ticket>, rest: seq<Ticket>)
    requires |s| > 0 && SortedBy(f, d, s) && InOrder(f, d, s[0], x)
    requires SortedBy(f, d, rest) && multiset(rest) == multiset(s[1..]) + multiset{x}
    ensures SortedBy(f, d, [s[0]] + rest)
  {
    forall y | y in rest
      ensures InOrder(f, d, s[0], y)
    {
      assert y in multiset(rest);
      if y != x {
        assert y in multiset(s[1..]);
        var k :| 0 <= k < |s[1..]| && s[1..][k] == y;
        assert s[k + 1] == y;
      }
    }
    HeadBeforeRest(f, d, s[0], rest);
  }

  /**
   The sort step: a permutation of its input, ordered by the key in the
   chosen direction. Ties keep their input order here; the dashboard's
   comparator leaves their order to the engine.
   */
  function Sort(f: SortField, d: Direction, s: seq<Ticket>): (r: seq<Ticket>)
    ensures SortedBy(f, d, r)
    ensures multiset(r) == multiset(s)
    ensures |r| == |s|
  {
    if |s| == 0 then []
    else
      assert s == [s[0]] + s[1..];
      Insert(f, d, s[0], Sort(f, d, s[1..]))
  }

  /** The list the dashboard renders: filter, then sort. */
  function Visible(tickets: seq<Ticket>, c: Criteria, f: SortField, d: Direction): (r: seq<Ticket>)
    ensures SortedBy(f, d, r)
    ensures multiset(r) == multiset(FilterTickets(tickets, c))
    ensures forall t :: t in r <==> t in tickets && Matches(c, t)
  {
    var r := Sort(f, d, FilterTickets(tickets, c));
    assert forall t :: t in r <==> t in multiset(r);
    r
  }

  /** Priorities sort as strings: critical, high, low, medium. */
  lemma PriorityOrderIsAlphabetical()
    ensures LexLe(CRITICAL, HIGH) && !LexLe(HIGH, CRITICAL)
    ensures LexLe(HIGH, LOW) && !LexLe(LOW, HIGH)
    ensures LexLe(LOW, MEDIUM) && !LexLe(MEDIUM, LOW)
  {
  }

  /** Two tickets created at different times, newest first. */
  lemma NewestFirst(a: Ticket, b: Ticket)
    requires a.createdAt < b.createdAt
    ensures Sort(CreatedAt, Desc, [a, b]) == [b, a]
  {
    var s := Sort(CreatedAt, Desc, [a, b]);
    assert multiset(s) == multiset{a, b};
    assert |s| == 2;
    assert s[0] in multiset(s) && s[1] in multiset(s);
    assert s == [s[0], s[1]];
  }

  // ------------------------------------------------------------ direction

  /** No two distinct tickets of `s` tie on the key. */
  predicate NoTies(f: SortField, s: seq<Ticket>) {
    forall i, j :: 0 <= i < |s| && 0 <= j < |s| && KeyLe(f, s[i], s[j]) && KeyLe(f, s[j], s[i]) ==> s[i] == s[j]
  }

  function Reverse(s: seq<Ticket>): (r: seq<Ticket>)
    ensures |r| == |s|
    ensures forall i :: 0 <= i < |s| ==> r[i] == s[|s| - 1 - i]
    ensures multiset(r) == multiset(s)
  {
    if |s| == 0 then []
    else
      assert s == [s[0]] + s[1..];
      Reverse(s[1..]) + [s[0]]
  }

  /** Two sorted permutations of a tie-free collection are the same list. */
  lemma {:induction false} SortedUnique(f: SortField, d: Direction, a: seq<Ticket>, b: seq<Ticket>)
    requires SortedBy(f, d, a) && SortedBy(f, d, b)
    requires multiset(a) == multiset(b)
    requires NoTies(f, a)
    ensures a == b
  {
    assert |a| == |multiset(a)| == |b|;
    if |a| > 0 {
      SameHead(f, d, a, b);
      SameTail(a, b);
      assert NoTies(f, a[1..]) by {
        forall i, j | 0 <= i < |a[1..]| && 0 <= j < |a[1..]|
          ensures KeyLe(f, a[1..][i], a[1..][j]) && KeyLe(f, a[1..][j], a[1..][i]) ==> a[1..][i] == a[1..][j]
        {
          assert a[1..][i] == a[i + 1] && a[1..][j] == a[j + 1];
        }
      }
      SortedUnique(f, d, a[1..], b[1..]);
      assert a == [a[0]] + a[1..] && b == [b[0]] + b[1..];
    }
  }

  /** Sorted permutations of a tie-free collection start with the same ticket. */
  lemma SameHead(f: SortField, d: Direction, a: seq<Ticket>, b: seq<Ticket>)
    requires |a| > 0 && |b| > 0
    requires SortedBy(f, d, a) && SortedBy(f, d, b)
    requires multiset(a) == multiset(b)
    requires NoTies(f, a)
    ensures a[0] == b[0]
  {
    assert a[0] in multiset(b) && b[0] in multiset(a);
    var i :| 0 <= i < |b| && b[i] == a[0];
    var j :| 0 <= j < |a| && a[j] == b[0];
    KeyLeReflexive(f, a[0]);
    KeyLeReflexive(f, b[0]);
    if d == Asc {
      assert KeyLe(f, a[0], a[j]);
      assert KeyLe(f, b[0], b[i]);
    } else {
      assert KeyLe(f, a[j], a[0]);
      assert KeyLe(f, b[i], b[0]);
    }
  }

  lemma SameTail(a: seq<Ticket>, b: seq<Ticket>)
    requires |a| > 0 && |b| > 0 && a[0] == b[0]
    requires multiset(a) == multiset(b)
    ensures multiset(a[1..]) == multiset(b[1..])
  {
    assert a == [a[0]] + a[1..] && b == [b[0]] + b[1..];
    assert multiset(a[1..]) == multiset(a) - multiset{a[0]};
    assert multiset(b[1..]) == multiset(b) - multiset{b[0]};
  }

  /** Without ties, sorting descending gives exactly the ascending result reversed. */
  lemma DescendingIsReversedAscending(f: SortField, s: seq<Ticket>)
    requires NoTies(f, s)
    ensures Sort(f, Desc, s) == Reverse(Sort(f, Asc, s))
  {
    var up := Sort(f, Asc, s);
    var down := Reverse(up);
    assert SortedBy(f, Desc, down);
    var desc := Sort(f, Desc, s);
    forall i, j | 0 <= i < |desc| && 0 <= j < |desc| && KeyLe(f, desc[i], desc[j]) && KeyLe(f, desc[j], desc[i])
      ensures desc[i] == desc[j]
    {
      assert desc[i] in multiset(s) && desc[j] in multiset(s);
    }
    SortedUnique(f, Desc, desc, down);
  }

  // ---------------------------------------------------------------- group

  function HasStatus(status: string): Ticket -> bool {
    (t: Ticket) => t.status == status
  }

  /** The four kanban columns. */
  datatype Buckets = Buckets(open: seq<Ticket>, inProgress: seq<Ticket>, resolved: seq<Ticket>, closed: seq<Ticket>)

  /** One column: the tickets of that status, in the sorted list's order. */
  function Bucket(sorted: seq<Ticket>, status: string): (r: seq<Ticket>)
    ensures IsSubseq(r, sorted)
    ensures forall t :: t in r <==> t in sorted && t.status == status
    ensures forall t :: multiset(r)[t] == if t.status == status then multiset(sorted)[t] else 0
  {
    FilterIsSubseq(sorted, HasStatus(status));
    FilterMultiset(sorted, HasStatus(status));
    Filter(sorted, HasStatus(status))
  }

  function Group(sorted: seq<Ticket>): Buckets {
    Buckets(Bucket(sorted, OPEN), Bucket(sorted, IN_PROGRESS), Bucket(sorted, RESOLVED), Bucket(sorted, CLOSED))
  }

  /** No ticket sits in two columns. */
  lemma BucketsDisjoint(sorted: seq<Ticket>)
    ensures var b := Group(sorted);
            && multiset(b.open) !! multiset(b.inProgress) && multiset(b.open) !! multiset(b.resolved)
            && multiset(b.open) !! multiset(b.closed) && multiset(b.inProgress) !! multiset(b.resolved)
            && multiset(b.inProgress) !! multiset(b.closed) && multiset(b.resolved) !! multiset(b.closed)
  {
  }

  predicate AllKnownStatus(s: seq<Ticket>) {
    forall i :: 0 <= i < |s| ==> KnownStatus(s[i].status)
  }

  /** The four status counts of a collection add up to its size when every status is one of the four. */
  lemma {:induction false} StatusCountsAddUp(s: seq<Ticket>)
    requires AllKnownStatus(s)
    ensures Count(s, HasStatus(OPEN)) + Count(s, HasStatus(IN_PROGRESS))
            + Count(s, HasStatus(RESOLVED)) + Count(s, HasStatus(CLOSED)) == |s|
  {
    if |s| > 0 {
      StatusCountsAddUp(s[1..]);
    }
  }

  /** With every status known, the columns hold every listed ticket exactly once. */
  lemma BucketSizes(sorted: seq<Ticket>)
    requires AllKnownStatus(sorted)
    ensures var b := Group(sorted);
            |b.open| + |b.inProgress| + |b.resolved| + |b.closed| == |sorted|
  {
    StatusCountsAddUp(sorted);
  }

  // ---------------------------------------------------------- statistics

  datatype Stats = Stats(total: nat, open: nat, inProgress: nat, resolved: nat, closed: nat, critical: nat, overdue: nat)

  function HasPriority(priority: string): Ticket -> bool {
    (t: Ticket) => t.priority == priority
  }

  function Overdue(now: int): Ticket -> bool {
    (t: Ticket) => OverdueAt(t, now)
  }

  /** The header statistics, over the whole unfiltered collection. */
  function ComputeStats(tickets: seq<Ticket>, now: int): (st: Stats)
    ensures st.total == |tickets|
    ensures st.open <= st.total && st.inProgress <= st.total && st.resolved <= st.total
    ensures st.closed <= st.total && st.critical <= st.total && st.overdue <= st.total
  {
    Stats(|tickets|,
          Count(tickets, HasStatus(OPEN)),
          Count(tickets, HasStatus(IN_PROGRESS)),
          Count(tickets, HasStatus(RESOLVED)),
          Count(tickets, HasStatus(CLOSED)),
          Count(tickets, HasPriority(CRITICAL)),
          Count(tickets, Overdue(now)))
  }

  /** open + inProgress + resolved + closed = total when every status is one of the four. */
  lemma StatsPartition(tickets: seq<Ticket>, now: int)
    requires AllKnownStatus(tickets)
    ensures var st := ComputeStats(tickets, now);
            st.open + st.inProgress + st.resolved + st.closed == st.total
  {
    StatusCountsAddUp(tickets);
  }

  /**
   Each status figure of the header is the size of that status's column on
   the unfiltered board, whatever the sort; the critical figure is positive
   exactly when some ticket is critical.
   */
  lemma StatsMatchColumns(tickets: seq<Ticket>, now: int, f: SortField, d: Direction)
    ensures var st := ComputeStats(tickets, now);
            var b := Group(Visible(tickets, Criteria("", ALL, ALL, ALL), f, d));
            && st.open == |b.open| && st.inProgress == |b.inProgress|
            && st.resolved == |b.resolved| && st.closed == |b.closed|
            && (st.critical > 0 <==> exists t :: t in tickets && t.priority == CRITICAL)
  {
    var shown := Visible(tickets, Criteria("", ALL, ALL, ALL), f, d);
    UnfilteredShowsAll(tickets, Criteria("", ALL, ALL, ALL));
    assert multiset(shown) == multiset(tickets);
    CountPermutation(shown, tickets, HasStatus(OPEN));
    CountPermutation(shown, tickets, HasStatus(IN_PROGRESS));
    CountPermutation(shown, tickets, HasStatus(RESOLVED));
    CountPermutation(shown, tickets, HasStatus(CLOSED));
    CountPositive(tickets, HasPriority(CRITICAL));
  }

  function ActiveAndLate(now: int): Ticket -> bool {
    (t: Ticket) => t.dueDate.Some? && t.dueDate.value < now && (t.status == OPEN || t.status == IN_PROGRESS)
  }

  /**
   With every status known, the overdue figure is the number of open or
   in-progress tickets whose due date has passed.
   */
  lemma {:induction false} OverdueIsActiveAndLate(tickets: seq<Ticket>, now: int)
    requires AllKnownStatus(tickets)
    ensures ComputeStats(tickets, now).overdue == Count(tickets, ActiveAndLate(now))
  {
    if |tickets| > 0 {
      OverdueIsActiveAndLate(tickets[1..], now);
    }
  }

  /** Overdue tickets are never resolved or closed ones. */
  lemma {:induction false} OverdueExcludesFinished(tickets: seq<Ticket>, now: int)
    ensures var st := ComputeStats(tickets, now);
            st.overdue + st.resolved + st.closed <= st.total
  {
    if |tickets| > 0 {
      OverdueExcludesFinished(tickets[1..], now);
    }
  }

  // ----------------------------------------------------------- assignees

  /** `tickets.map(t => t.assignee).filter(Boolean)`: the non-empty assignees, in ticket order. */
  function AssigneeNames(tickets: seq<Ticket>): (names: seq<string>)
    ensures forall a :: a in names <==> a != "" && exists i :: 0 <= i < |tickets| && tickets[i].assignee == Some(a)
  {
    if |tickets| == 0 then []
    else
      var rest := AssigneeNames(tickets[1..]);
      assert forall i :: 0 < i < |tickets| ==> tickets[i] == tickets[1..][i - 1];
      match tickets[0].assignee
      case Some(a) => if a != "" then [a] + rest else rest
      case None => rest
  }

  /**
   `[...new Set(names)]`: each non-empty assignee once, in the order of its
   first appearance.
   */
  method UniqueAssignees(tickets: seq<Ticket>) returns (names: seq<string>)
    ensures NoDup(names)
    ensures forall a :: a in names <==> a != "" && exists i :: 0 <= i < |tickets| && tickets[i].assignee == Some(a)
    ensures forall i, j :: 0 <= i < j < |names| ==>
              names[i] in AssigneeNames(tickets) && names[j] in AssigneeNames(tickets)
              && FirstIndex(AssigneeNames(tickets), names[i]) < FirstIndex(AssigneeNames(tickets), names[j])
  {
    var all := AssigneeNames(tickets);
    names := [];
    var k := 0;
    while k < |all|
      invariant 0 <= k <= |all|
      invariant NoDup(names)
      invariant forall a :: a in names <==> a in all[..k]
      invariant forall i :: 0 <= i < |names| ==> names[i] in all && FirstIndex(all, names[i]) < k
      invariant forall i, j :: 0 <= i < j < |names| ==> FirstIndex(all, names[i]) < FirstIndex(all, names[j])
    {
      var a := all[k];
      if a !in names {
        FirstIndexAt(all, k, a);
        names := names + [a];
      }
      assert all[..k + 1] == all[..k] + [a];
      k := k + 1;
    }
    assert all[..k] == all;
  }
}

=== FILE: scenarios.dfy ===
/**
 The editor, the store and the query pipeline together: a ticket typed into
 a new form, submitted, stored and shown on the board.
 */
module Scenarios {
  import opened Wrappers
  import opened Seqs
  import opened Text
  import opened Tickets
  import opened Store
  import opened Query
  import opened TicketForm

  /** No search text and every drop-down on "all". */
  const NO_FILTER := Criteria("", ALL, ALL, ALL)

  /** The store after a submit: a new ticket when the editor hands a draft on, else as it was. */
  function SubmitToStore(tickets: seq<Ticket>, sub: Submission, now: int): seq<Ticket> {
    match sub.sent
    case None => tickets
    case Some(d) => Create(tickets, d, now)
  }

  /** A new form with the title, description and priority typed in. */
  function FillNew(title: string, description: string, priority: string): FormData {
    var s0 := FormState(Initial(None), map[]);
    var s1 := HandleChange(s0, TitleField, TextInput(title));
    var s2 := HandleChange(s1, DescriptionField, TextInput(description));
    HandleChange(s2, PriorityField, TextInput(priority)).data
  }

  /** Text with a character that is not a space is not blank. */
  lemma NotBlank(s: string, i: nat)
    requires i < |s| && !IsSpace(s[i])
    ensures !IsBlank(s)
  {
  }

  /** The unfiltered board shows a one-ticket store as that ticket, in the column of its status. */
  lemma SingleTicketBoard(t: Ticket, f: SortField, dir: Direction)
    ensures Visible([t], NO_FILTER, f, dir) == [t]
    ensures Bucket([t], t.status) == [t]
  {
    UnfilteredShowsAll([t], NO_FILTER);
    var r := Visible([t], NO_FILTER, f, dir);
    assert |r| == 1 && r[0] in multiset(r);
  }

  /**
   Typing a valid title and description into a new form and submitting
   stores exactly one ticket, open by default, with no due date or hours, and
   the unfiltered board shows it in the open column whatever the sort.
   */
  lemma NewTicketLandsInOpen(title: string, description: string, priority: string,
                             todayStart: int, now: int, f: SortField, dir: Direction)
    requires !IsBlank(title) && |title| >= 3
    requires !IsBlank(description) && |description| >= 10
    ensures var sub := HandleSubmit(FillNew(title, description, priority), todayStart);
      var store := SubmitToStore([], sub, now);
      && sub.sent.Some?
      && |store| == 1
      && store[0].title == title && store[0].description == description
      && store[0].priority == priority && store[0].status == OPEN
      && store[0].dueDate.None? && store[0].estimatedHours.None? && store[0].tags == []
      && store[0].id == now && store[0].createdAt == store[0].updatedAt
      && Group(Visible(store, NO_FILTER, f, dir)).open == store
  {
    var form := FillNew(title, description, priority);
    assert form == FormData(title, description, priority, "", None, OPEN, "", "", "");
    ValidIff(form, todayStart);
    var store := SubmitToStore([], HandleSubmit(form, todayStart), now);
    assert store == [NewTicket(Normalize(form), now)];
    SingleTicketBoard(store[0], f, dir);
  }

  /** The "Printer jam" ticket of high priority, created in an empty store, shows in the open column. */
  lemma PrinterJam(todayStart: int, now: int)
    ensures var sub := HandleSubmit(FillNew("Printer jam", "Office printer on 3rd floor is jammed", HIGH), todayStart);
      var store := SubmitToStore([], sub, now);
      && |store| == 1 && store[0].status == OPEN
      && Group(Visible(store, NO_FILTER, CreatedAt, Desc)).open == store
  {
    NotBlank("Printer jam", 0);
    NotBlank("Office printer on 3rd floor is jammed", 0);
    NewTicketLandsInOpen("Printer jam", "Office printer on 3rd floor is jammed", HIGH, todayStart, now, CreatedAt, Desc);
  }

  /** A two-character title is refused with the length message and the store is left alone. */
  lemma ShortTitleRefused(tickets: seq<Ticket>, description: string, priority: string, todayStart: int, now: int)
    ensures var sub := HandleSubmit(FillNew("ab", description, priority), todayStart);
      && sub.sent.None?
      && TitleField in sub.errors && sub.errors[TitleField] == TITLE_TOO_SHORT
      && SubmitToStore(tickets, sub, now) == tickets
  {
    var form := FillNew("ab", description, priority);
    assert form.title == "ab";
    TitleRules("ab", 0);
    TitleCheck(form, todayStart);
  }
}

=== FILE: seqs.dfy ===
/**
 Order-preserving filters, counts and the sequence relations the dashboard's
 array pipelines (`filter`, `length`, `new Set`) are stated with.
 */
module Seqs {

  /** Array.prototype.filter: keeps, in order, the elements satisfying `p`. */
  function Filter<T(!new)>(s: seq<T>, p: T -> bool): (r: seq<T>)
    ensures |r| <= |s|
    ensures forall i :: 0 <= i < |r| ==> p(r[i])
    ensures forall x :: x in r <==> x in s && p(x)
    ensures (forall i :: 0 <= i < |s| ==> p(s[i])) ==> r == s
  {
    if |s| == 0 then []
    else
      var rest := Filter(s[1..], p);
      assert s == [s[0]] + s[1..];
      if p(s[0]) then [s[0]] + rest else rest
  }

  /** A filter keeps every copy of a kept element and no copy of a dropped one. */
  lemma {:induction false} FilterMultiset<T(!new)>(s: seq<T>, p: T -> bool)
    ensures forall x :: multiset(Filter(s, p))[x] == if p(x) then multiset(s)[x] else 0
  {
    if |s| > 0 {
      FilterMultiset(s[1..], p);
      assert s == [s[0]] + s[1..];
    }
  }

  /** `xs.filter(p).length`. */
  function Count<T(!new)>(s: seq<T>, p: T -> bool): nat {
    |Filter(s, p)|
  }

  /** `a` is `b` with some elements removed, the rest kept in their order. */
  predicate IsSubseq<T(==)>(a: seq<T>, b: seq<T>)
    decreases |b|
  {
    && |a| <= |b|
    && (|a| == 0
        || (a[0] == b[0] && IsSubseq(a[1..], b[1..]))
        || IsSubseq(a, b[1..]))
  }

  /** No element occurs twice. */
  predicate NoDup<T(==)>(s: seq<T>) {
    forall i, j :: 0 <= i < j < |s| ==> s[i] != s[j]
  }

  /** Index of the first occurrence of `x` in `s`. */
  function FirstIndex<T(==)>(s: seq<T>, x: T): (i: nat)
    requires x in s
    ensures i < |s| && s[i] == x
    ensures x !in s[..i]
  {
    if s[0] == x then 0
    else
      assert x in s[1..];
      var j := FirstIndex(s[1..], x);
      assert s[..j + 1] == [s[0]] + s[1..][..j];
      j + 1
  }

  /** The first occurrence of `x` is the one position holding `x` with no `x` before it. */
  lemma FirstIndexAt<T>(s: seq<T>, k: nat, x: T)
    requires k < |s| && s[k] == x && x !in s[..k]
    ensures FirstIndex(s, x) == k
  {
  }

  /** A filter's result is an order-preserving subsequence of its input. */
  lemma {:induction false} FilterIsSubseq<T(!new)>(s: seq<T>, p: T -> bool)
    ensures IsSubseq(Filter(s, p), s)
  {
    if |s| > 0 {
      FilterIsSubseq(s[1..], p);
      if p(s[0]) {
        assert Filter(s, p) == [s[0]] + Filter(s[1..], p);
        assert Filter(s, p)[1..] == Filter(s[1..], p);
      }
    }
  }

  /** Filtering twice with the same predicate is filtering once. */
  lemma FilterIdempotent<T(!new)>(s: seq<T>, p: T -> bool)
    ensures Filter(Filter(s, p), p) == Filter(s, p)
  {
  }

  /** Filtering with `p` and then with `q` keeps what satisfies both. */
  lemma {:induction false} FilterFilter<T(!new)>(s: seq<T>, p: T -> bool, q: T -> bool, pq: T -> bool)
    requires forall x :: pq(x) == (p(x) && q(x))
    ensures Filter(Filter(s, p), q) == Filter(s, pq)
  {
    if |s| > 0 {
      FilterFilter(s[1..], p, q, pq);
      if p(s[0]) {
        assert Filter(s, p) == [s[0]] + Filter(s[1..], p);
      }
    }
  }

  /** A count is additive over concatenation. */
  lemma {:induction false} CountAppend<T(!new)>(a: seq<T>, b: seq<T>, p: T -> bool)
    ensures Count(a + b, p) == Count(a, p) + Count(b, p)
  {
    if |a| == 0 {
      assert a + b == b;
    } else {
      assert (a + b)[1..] == a[1..] + b;
      CountAppend(a[1..], b, p);
    }
  }

  /** A predicate implied by another counts at least as many elements. */
  lemma {:induction false} CountBounds<T(!new)>(s: seq<T>, p: T -> bool, q: T -> bool)
    requires forall x :: p(x) ==> q(x)
    ensures Count(s, p) <= Count(s, q)
  {
    if |s| > 0 {
      CountBounds(s[1..], p, q);
    }
  }

  /** Nothing satisfies `p`: the count is zero. */
  lemma {:induction false} CountNone<T(!new)>(s: seq<T>, p: T -> bool)
    requires forall i :: 0 <= i < |s| ==> !p(s[i])
    ensures Count(s, p) == 0
  {
    if |s| > 0 {
      CountNone(s[1..], p);
    }
  }

  /** Counting does not depend on the order: a rearrangement counts the same. */
  lemma CountPermutation<T(!new)>(a: seq<T>, b: seq<T>, p: T -> bool)
    requires multiset(a) == multiset(b)
    ensures Count(a, p) == Count(b, p)
  {
    FilterMultiset(a, p);
    FilterMultiset(b, p);
    assert multiset(Filter(a, p)) == multiset(Filter(b, p));
    assert |multiset(Filter(a, p))| == |Filter(a, p)|;
    assert |multiset(Filter(b, p))| == |Filter(b, p)|;
  }

  /** The count is positive exactly when some element satisfies `p`. */
  lemma CountPositive<T(!new)>(s: seq<T>, p: T -> bool)
    ensures Count(s, p) > 0 <==> exists x :: x in s && p(x)
  {
    var r := Filter(s, p);
    if |r| > 0 {
      assert r[0] in r;
    }
  }
}

=== FILE: store.dfy ===
/**
 The dashboard's ticket collection and its three mutations: create, update
 and delete. The collection is an immutable sequence; each operation returns
 the next one. The clock (`Date.now()`) and the answer to the delete
 confirmation dialog are parameters.
 */
module Store {
  import opened Wrappers
  import opened Seqs
  import opened Tickets

  /** Ticket ids are pairwise distinct. */
  predicate UniqueIds(tickets: seq<Ticket>) {
    forall i, j :: 0 <= i < j < |tickets| ==> tickets[i].id != tickets[j].id
  }

  /** The record `handleCreateTicket` builds: the payload plus id and timestamps taken from the clock. */
  function NewTicket(d: Draft, now: int): (t: Ticket)
    ensures t.id == now && t.createdAt == now && t.updatedAt == t.createdAt
    ensures t.title == d.title && t.description == d.description
    ensures t.status == d.status && t.priority == d.priority
    ensures t.assignee == Some(d.assignee) && t.customerName == Some(d.customerName)
    ensures t.dueDate == d.dueDate && t.estimatedHours == d.estimatedHours && t.tags == d.tags
  {
    Ticket(now, d.title, d.description, d.status, d.priority, Some(d.assignee),
           Some(d.customerName), now, now, d.dueDate, d.estimatedHours, d.tags)
  }

  /** `handleCreateTicket`: appends exactly one new ticket and keeps the earlier ones as they were. */
  function Create(tickets: seq<Ticket>, d: Draft, now: int): (r: seq<Ticket>)
    ensures |r| == |tickets| + 1
    ensures r[..|tickets|] == tickets
    ensures r[|tickets|] == NewTicket(d, now)
  {
    tickets + [NewTicket(d, now)]
  }

  /** When the clock is ahead of every existing id, creating keeps ids distinct. */
  lemma CreateKeepsIdsUnique(tickets: seq<Ticket>, d: Draft, now: int)
    requires UniqueIds(tickets)
    requires forall i :: 0 <= i < |tickets| ==> tickets[i].id < now
    ensures UniqueIds(Create(tickets, d, now))
    ensures forall i :: 0 <= i < |tickets| + 1 ==> Create(tickets, d, now)[i].id <= now
  {
    var r := Create(tickets, d, now);
    forall i, j | 0 <= i < j < |r|
      ensures r[i].id != r[j].id
    {
      if j == |tickets| {
        assert r[i] == tickets[i];
      } else {
        assert r[i] == tickets[i] && r[j] == tickets[j];
      }
    }
  }

  /**
   `handleUpdateTicket`: every ticket whose id matches gets the patch merged
   in and a fresh `updatedAt`; all others, and the order, stay as they were.
   */
  function Update(tickets: seq<Ticket>, id: int, p: Patch, now: int): (r: seq<Ticket>)
    ensures |r| == |tickets|
    ensures forall i :: 0 <= i < |r| && tickets[i].id != id ==> r[i] == tickets[i]
    ensures forall i :: 0 <= i < |r| && tickets[i].id == id ==> r[i] == Apply(tickets[i], p, now)
    ensures forall i :: 0 <= i < |r| ==> r[i].id == tickets[i].id && r[i].createdAt == tickets[i].createdAt
    ensures (forall i :: 0 <= i < |tickets| ==> tickets[i].id != id) ==> r == tickets
  {
    if |tickets| == 0 then []
    else
      var head := if tickets[0].id == id then Apply(tickets[0], p, now) else tickets[0];
      [head] + Update(tickets[1..], id, p, now)
  }

  /** Updating keeps ids distinct: the patch has no id key. */
  lemma UpdateKeepsIdsUnique(tickets: seq<Ticket>, id: int, p: Patch, now: int)
    requires UniqueIds(tickets)
    ensures UniqueIds(Update(tickets, id, p, now))
  {
  }

  /** With a clock ahead of the matched ticket's last update, its `updatedAt` strictly increases. */
  lemma UpdateAdvancesTime(tickets: seq<Ticket>, id: int, p: Patch, now: int, i: int)
    requires 0 <= i < |tickets| && tickets[i].id == id && tickets[i].updatedAt < now
    ensures Update(tickets, id, p, now)[i].updatedAt > tickets[i].updatedAt
  {
    ApplyKeepsIdentity(tickets[i], p, now);
  }

  function HasId(id: int): Ticket -> bool {
    (t: Ticket) => t.id == id
  }

  function OtherId(id: int): Ticket -> bool {
    (t: Ticket) => t.id != id
  }

  /**
   `handleDeleteTicket`: when the user confirms, every ticket with the id is
   removed and the rest keep their order; otherwise nothing changes.
   */
  function Delete(tickets: seq<Ticket>, id: int, confirmed: bool): (r: seq<Ticket>)
    ensures !confirmed ==> r == tickets
    ensures confirmed ==> IsSubseq(r, tickets)
    ensures confirmed ==> forall t :: t in r <==> t in tickets && t.id != id
    ensures confirmed ==> forall t: Ticket :: t.id != id ==> multiset(r)[t] == multiset(tickets)[t]
    ensures confirmed ==> |r| == |tickets| - Count(tickets, HasId(id))
  {
    if confirmed then
      var r := Filter(tickets, OtherId(id));
      FilterIsSubseq(tickets, OtherId(id));
      FilterMultiset(tickets, OtherId(id));
      CountComplement(tickets, id);
      r
    else tickets
  }

  /** Tickets with the id plus tickets without it make up the whole collection. */
  lemma {:induction false} CountComplement(tickets: seq<Ticket>, id: int)
    ensures Count(tickets, HasId(id)) + Count(tickets, OtherId(id)) == |tickets|
  {
    if |tickets| > 0 {
      CountComplement(tickets[1..], id);
    }
  }

  /** Deleting keeps ids distinct. */
  lemma DeleteKeepsIdsUnique(tickets: seq<Ticket>, id: int, confirmed: bool)
    requires UniqueIds(tickets)
    ensures UniqueIds(Delete(tickets, id, confirmed))
  {
    if confirmed {
      FilterKeepsIdsUnique(tickets, OtherId(id));
    }
  }

  lemma {:induction false} FilterKeepsIdsUnique(tickets: seq<Ticket>, p: Ticket -> bool)
    requires UniqueIds(tickets)
    ensures UniqueIds(Filter(tickets, p))
  {
    if |tickets| > 0 {
      FilterKeepsIdsUnique(tickets[1..], p);
      var rest := Filter(tickets[1..], p);
      if p(tickets[0]) {
        var r := [tickets[0]] + rest;
        forall j | 0 < j < |r|
          ensures r[0].id != r[j].id
        {
          assert r[j] in tickets[1..];
        }
      }
    }
  }

  /** Deleting a ticket after updating it is the same as deleting it straight away. */
  lemma {:induction false} DeleteAfterUpdate(tickets: seq<Ticket>, id: int, p: Patch, now: int)
    ensures Delete(Update(tickets, id, p, now), id, true) == Delete(tickets, id, true)
  {
    if |tickets| > 0 {
      DeleteAfterUpdate(tickets[1..], id, p, now);
      var u := Update(tickets, id, p, now);
      assert u[1..] == Update(tickets[1..], id, p, now);
    }
  }

  /**
   What the editor's submit does on the dashboard: create a ticket when no
   ticket is being edited, otherwise update the edited ticket with the full payload.
   */
  function SubmitDraft(tickets: seq<Ticket>, editing: Option<int>, d: Draft, now: int): (r: seq<Ticket>)
    ensures editing.None? ==> |r| == |tickets| + 1 && r[..|tickets|] == tickets && r[|tickets|] == NewTicket(d, now)
    ensures editing.Some? ==> |r| == |tickets|
    ensures editing.Some? ==> forall i :: 0 <= i < |r| ==>
              r[i] == if tickets[i].id == editing.value then Apply(tickets[i], DraftPatch(d), now) else tickets[i]
    ensures editing.Some? ==> forall i :: 0 <= i < |r| && tickets[i].id == editing.value ==>
              r[i].title == d.title && r[i].description == d.description
              && r[i].priority == d.priority && r[i].status == d.status
              && r[i].assignee == Some(d.assignee) && r[i].customerName == Some(d.customerName)
              && r[i].dueDate == d.dueDate && r[i].estimatedHours == d.estimatedHours
              && r[i].tags == d.tags && r[i].createdAt == tickets[i].createdAt && r[i].updatedAt == now
  {
    match editing
    case None => Create(tickets, d, now)
    case Some(id) => Update(tickets, id, DraftPatch(d), now)
  }
}

=== FILE: text.dfy ===
/**
 The string primitives the components lean on, written out over `seq<char>`:
 ASCII `toLowerCase`, `includes`, `trim`, `split`/`join`, the character
 ordering behind `<` on strings, `Number#toString` and `parseInt(_, 10)`.
 A character here is a Unicode scalar value, not a UTF-16 code unit.
 */
module Text {
  import opened Wrappers

  // ---------------------------------------------------------------- case

  function LowerChar(c: char): char {
    if 'A' <= c <= 'Z' then (c as int + 32) as char else c
  }

  /** `toLowerCase`, restricted to ASCII letters. */
  function Lower(s: string): (r: string)
    ensures |r| == |s|
    ensures forall i :: 0 <= i < |s| ==> r[i] == LowerChar(s[i])
  {
    if |s| == 0 then "" else [LowerChar(s[0])] + Lower(s[1..])
  }

  // ----------------------------------------------------------- substrings

  predicate IsPrefix(p: string, s: string) {
    |p| <= |s| && s[..|p|] == p
  }

  /** `hay.includes(needle)`: some position of `hay` starts a copy of `needle`. */
  predicate Contains(hay: string, needle: string)
    decreases |hay|
  {
    IsPrefix(needle, hay) || (|hay| > 0 && Contains(hay[1..], needle))
  }

  /** `needle` occurs in `hay` starting at position `i`. */
  predicate OccursAt(hay: string, needle: string, i: int) {
    0 <= i && i + |needle| <= |hay| && hay[i..i + |needle|] == needle
  }

  /** `Contains` agrees with the positional definition of a substring. */
  lemma {:induction false} ContainsIff(hay: string, needle: string)
    ensures Contains(hay, needle) <==> exists i :: OccursAt(hay, needle, i)
  {
    if IsPrefix(needle, hay) {
      assert OccursAt(hay, needle, 0);
    } else if |hay| == 0 {
    } else {
      ContainsIff(hay[1..], needle);
      if Contains(hay[1..], needle) {
        var i :| OccursAt(hay[1..], needle, i);
        assert OccursAt(hay, needle, i + 1);
      }
      if exists i :: OccursAt(hay, needle, i) {
        var i :| OccursAt(hay, needle, i);
        assert i != 0;
        assert OccursAt(hay[1..], needle, i - 1);
      }
    }
  }

  /** The empty string is contained in everything: `includes('')` is always true. */
  lemma ContainsEmpty(hay: string)
    ensures Contains(hay, "")
  {
    assert IsPrefix("", hay);
  }

  /** A string is contained in any string built around it. */
  lemma ContainsMiddle(a: string, b: string, c: string)
    ensures Contains(a + b + c, b)
  {
    var h := a + b + c;
    assert OccursAt(h, b, |a|);
    ContainsIff(h, b);
  }

  // ----------------------------------------------------------------- trim

  /** The characters `String.prototype.trim` removes (Unicode space separators other than NBSP left out). */
  predicate IsSpace(c: char) {
    c == ' ' || c == '\t' || c == '\n' || c == '\r' || c == '\U{B}' || c == '\U{C}'
    || c == '\U{A0}' || c == '\U{FEFF}' || c == '\U{2028}' || c == '\U{2029}'
  }

  predicate IsTrimmed(s: string) {
    |s| == 0 || (!IsSpace(s[0]) && !IsSpace(s[|s| - 1]))
  }

  function TrimStart(s: string): (r: string)
    ensures |r| <= |s| && r == s[|s| - |r|..]
    ensures forall i :: 0 <= i < |s| - |r| ==> IsSpace(s[i])
    ensures |r| > 0 ==> !IsSpace(r[0])
  {
    if |s| > 0 && IsSpace(s[0]) then TrimStart(s[1..]) else s
  }

  function TrimEnd(s: string): (r: string)
    ensures |r| <= |s| && r == s[..|r|]
    ensures forall i :: |r| <= i < |s| ==> IsSpace(s[i])
    ensures |r| > 0 ==> !IsSpace(r[|r| - 1])
  {
    if |s| > 0 && IsSpace(s[|s| - 1]) then TrimEnd(s[..|s| - 1]) else s
  }

  /** `trim()`: what is left after removing whitespace at both ends. */
  function Trim(s: string): (r: string)
    ensures IsTrimmed(r)
    ensures r == "" <==> forall k :: 0 <= k < |s| ==> IsSpace(s[k])
    ensures IsTrimmed(s) ==> r == s
  {
    var a := TrimStart(s);
    assert IsTrimmed(s) ==> a == s;
    TrimEnd(a)
  }

  /**
   What `trim()` keeps is a slice of the text: only whitespace lies before
   it and after it. With `IsTrimmed` of the result, this pins the result down.
   */
  lemma TrimSlice(s: string)
    ensures exists a, b :: 0 <= a <= b <= |s| && Trim(s) == s[a..b]
              && (forall k :: 0 <= k < a ==> IsSpace(s[k]))
              && (forall k :: b <= k < |s| ==> IsSpace(s[k]))
  {
    var t := TrimStart(s);
    var r := TrimEnd(t);
    var lo := |s| - |t|;
    var hi := lo + |r|;
    assert Trim(s) == r;
    assert r == s[lo..hi];
    forall k | hi <= k < |s|
      ensures IsSpace(s[k])
    {
      assert s[k] == t[k - lo];
    }
    assert 0 <= lo <= hi <= |s| && Trim(s) == s[lo..hi]
      && (forall k :: 0 <= k < lo ==> IsSpace(s[k]))
      && (forall k :: hi <= k < |s| ==> IsSpace(s[k]));
  }

  /** Trimming adds no character: one missing from `s` is missing from `trim(s)`. */
  lemma TrimKeepsOut(s: string, c: char)
    requires c !in s
    ensures c !in Trim(s)
  {
    var a := TrimStart(s);
    assert c !in a;
  }

  /** Trimming strips the space that `join(', ')` puts after a comma. */
  lemma TrimLeadingSpace(t: string)
    requires IsTrimmed(t) && |t| > 0
    ensures Trim(" " + t) == t
  {
    assert TrimStart(" " + t) == t by {
      assert (" " + t)[1..] == t;
    }
  }

  // ---------------------------------------------------------- split, join

  /** `parts.join(sep)`. */
  function Join(parts: seq<string>, sep: string): string {
    if |parts| == 0 then ""
    else if |parts| == 1 then parts[0]
    else parts[0] + sep + Join(parts[1..], sep)
  }

  /** `s.split(sep)` for a one-character separator; joining the pieces gives `s` back. */
  function Split(s: string, sep: char): (parts: seq<string>)
    ensures |parts| >= 1
    ensures forall i :: 0 <= i < |parts| ==> sep !in parts[i]
    ensures Join(parts, [sep]) == s
  {
    if |s| == 0 then [""]
    else
      var rest := Split(s[1..], sep);
      if s[0] == sep then
        assert s == [sep] + s[1..];
        [""] + rest
      else
        var parts := [[s[0]] + rest[0]] + rest[1..];
        assert parts[1..] == rest[1..];
        assert s == [s[0]] + s[1..];
        parts
  }

  /** A piece without the separator, followed by the separator, splits off as one part. */
  lemma {:induction false} SplitPiece(a: string, sep: char, b: string)
    requires sep !in a
    ensures Split(a + [sep] + b, sep) == [a] + Split(b, sep)
  {
    if |a| > 0 {
      assert (a + [sep] + b)[1..] == a[1..] + [sep] + b;
      SplitPiece(a[1..], sep, b);
      assert a == [a[0]] + a[1..];
    } else {
      assert a + [sep] + b == [sep] + b;
    }
  }

  /** Splitting undoes joining when no part contains the separator. */
  lemma {:induction false} SplitJoin(parts: seq<string>, sep: char)
    requires |parts| >= 1
    requires forall i :: 0 <= i < |parts| ==> sep !in parts[i]
    ensures Split(Join(parts, [sep]), sep) == parts
  {
    if |parts| == 1 {
      SplitWhole(parts[0], sep);
    } else {
      SplitJoin(parts[1..], sep);
      SplitPiece(parts[0], sep, Join(parts[1..], [sep]));
    }
  }

  /** Splitting text made of two texts around a separator splits each of them. */
  lemma {:induction false} SplitAppend(a: string, sep: char, b: string)
    ensures Split(a + [sep] + b, sep) == Split(a, sep) + Split(b, sep)
  {
    if |a| == 0 {
      SplitPiece(a, sep, b);
    } else {
      assert (a + [sep] + b)[1..] == a[1..] + [sep] + b;
      SplitAppend(a[1..], sep, b);
    }
  }

  /** A string without the separator splits into itself alone. */
  lemma {:induction false} SplitWhole(a: string, sep: char)
    requires sep !in a
    ensures Split(a, sep) == [a]
  {
    if |a| > 0 {
      SplitWhole(a[1..], sep);
      assert a == [a[0]] + a[1..];
    }
  }

  // ----------------------------------------------------- string ordering

  /** `a <= b` on strings: lexicographic by character value, a prefix first. */
  predicate LexLe(a: string, b: string)
    decreases |a|
  {
    |a| == 0 || (|b| > 0 && (a[0] < b[0] || (a[0] == b[0] && LexLe(a[1..], b[1..]))))
  }

  lemma {:induction false} LexLeReflexive(a: string)
    ensures LexLe(a, a)
  {
    if |a| > 0 {
      LexLeReflexive(a[1..]);
    }
  }

  lemma {:induction false} LexLeTransitive(a: string, b: string, c: string)
    requires LexLe(a, b) && LexLe(b, c)
    ensures LexLe(a, c)
  {
    if |a| > 0 && a[0] == b[0] && b[0] == c[0] {
      LexLeTransitive(a[1..], b[1..], c[1..]);
    }
  }

  lemma {:induction false} LexLeTotal(a: string, b: string)
    ensures LexLe(a, b) || LexLe(b, a)
  {
    if |a| > 0 && |b| > 0 && a[0] == b[0] {
      LexLeTotal(a[1..], b[1..]);
    }
  }

  lemma {:induction false} LexLeAntisymmetric(a: string, b: string)
    requires LexLe(a, b) && LexLe(b, a)
    ensures a == b
  {
    if |a| > 0 {
      LexLeAntisymmetric(a[1..], b[1..]);
      assert a == [a[0]] + a[1..] && b == [b[0]] + b[1..];
    }
  }

  // -------------------------------------------------------------- numbers

  predicate IsDigit(c: char) {
    '0' <= c <= '9'
  }

  predicate AllDigits(s: string) {
    forall i :: 0 <= i < |s| ==> IsDigit(s[i])
  }

  function DigitChar(d: nat): (c: char)
    requires d < 10
    ensures IsDigit(c) && c as int - '0' as int == d
  {
    (d + '0' as int) as char
  }

  /** The value of a run of decimal digits, leading zeros allowed. */
  function DigitsValue(s: string): nat
    requires AllDigits(s)
  {
    if |s| == 0 then 0
    else DigitsValue(s[..|s| - 1]) * 10 + (s[|s| - 1] as int - '0' as int)
  }

  /** Digits that are all zeros are worth zero, however many there are. */
  lemma {:induction false} ZerosValue(s: string)
    requires forall i :: 0 <= i < |s| ==> s[i] == '0'
    ensures AllDigits(s) && DigitsValue(s) == 0
  {
    if |s| > 0 {
      ZerosValue(s[..|s| - 1]);
    }
  }

  /** `n.toString()` for a non-negative integer: the canonical decimal digits of `n`. */
  function NatToString(n: nat): (r: string)
    ensures |r| >= 1 && AllDigits(r)
    ensures DigitsValue(r) == n
    ensures r[0] != '0' || n == 0
  {
    if n < 10 then [DigitChar(n)]
    else
      var r := NatToString(n / 10) + [DigitChar(n % 10)];
      assert r[..|r| - 1] == NatToString(n / 10);
      r
  }

  /** Length of the run of digits `s` starts with. */
  function DigitRun(s: string): (k: nat)
    ensures k <= |s| && AllDigits(s[..k])
    ensures k < |s| ==> !IsDigit(s[k])
  {
    if |s| > 0 && IsDigit(s[0]) then
      var k := 1 + DigitRun(s[1..]);
      assert s[..k] == [s[0]] + s[1..][..k - 1];
      k
    else 0
  }

  /** The number of sign characters (`-` or `+`) a numeral starts with: zero or one. */
  function SignLen(t: string): nat {
    if |t| > 0 && (t[0] == '-' || t[0] == '+') then 1 else 0
  }

  /** Reads the leading run of digits of `body`; no digit at all gives `None`. */
  function ParseDigits(body: string): Option<nat> {
    var k := DigitRun(body);
    if k == 0 then None else Some(DigitsValue(body[..k]))
  }

  /**
   `parseInt(s, 10)`: skip leading whitespace, read an optional sign and then
   the longest run of digits; no digit at all gives NaN, modelled as `None`.
   */
  function ParseInt(s: string): Option<int> {
    var t := SkipSpace(s);
    match ParseDigits(t[SignLen(t)..])
    case None => None
    case Some(v) => if SignLen(t) == 1 && t[0] == '-' then Some(-(v as int)) else Some(v)
  }

  /** `n.toString()` for any integer; `parseInt` reads it back. */
  function IntToString(n: int): (r: string)
    ensures |r| >= 1 && (AllDigits(r) || (r[0] == '-' && AllDigits(r[1..])))
    ensures ParseInt(r) == Some(n)
  {
    if n < 0 then
      var d := NatToString(-n);
      var m := "-" + d;
      assert m[1..] == d;
      ParseIntNegative(m, d);
      m
    else
      var d := NatToString(n);
      ParseIntPositive(d, "");
      assert d + "" == d;
      d
  }

  /** The leading digits of `digits + rest` are exactly `digits` when `rest` does not start with one. */
  lemma ParseDigitsStops(digits: string, rest: string)
    requires |digits| >= 1 && AllDigits(digits)
    requires |rest| == 0 || !IsDigit(rest[0])
    ensures ParseDigits(digits + rest) == Some(DigitsValue(digits))
  {
    DigitRunOf(digits, rest);
    assert (digits + rest)[..|digits|] == digits;
  }

  /** `parseInt` of text starting with a digit reads its leading run of digits. */
  lemma ParseIntUnsigned(s: string)
    requires |s| > 0 && IsDigit(s[0])
    ensures ParseInt(s) == ParseDigits(s)
  {
    assert !IsSpace(s[0]);
    var t := SkipSpace(s);
    assert SignLen(t) == 0;
    assert t[SignLen(t)..] == s;
  }

  /** `parseInt` of text starting with a minus sign negates what follows. */
  lemma ParseIntMinus(s: string, tail: string, v: nat)
    requires |s| > 0 && s[0] == '-' && s[1..] == tail
    requires ParseDigits(tail) == Some(v)
    ensures ParseInt(s) == Some(-(v as int))
  {
    var t := SkipSpace(s);
    assert SignLen(t) == 1;
  }

  /** Drops leading whitespace; the same slice as `TrimStart`, kept lean for the parser. */
  function SkipSpace(s: string): string {
    if |s| > 0 && IsSpace(s[0]) then SkipSpace(s[1..]) else s
  }

  /** `parseInt` of digits followed by text that does not start with a digit reads exactly the digits. */
  lemma ParseIntPositive(digits: string, rest: string)
    requires |digits| >= 1 && AllDigits(digits)
    requires |rest| == 0 || !IsDigit(rest[0])
    ensures ParseInt(digits + rest) == Some(DigitsValue(digits))
  {
    var s := digits + rest;
    assert s[0] == digits[0];
    ParseIntUnsigned(s);
    ParseDigitsStops(digits, rest);
  }

  /** `parseInt` of a minus sign followed by digits reads the negated digits. */
  lemma ParseIntNegative(m: string, digits: string)
    requires |digits| >= 1 && AllDigits(digits)
    requires |m| > 0 && m[0] == '-' && m[1..] == digits
    ensures ParseInt(m) == Some(-(DigitsValue(digits) as int))
  {
    ParseDigitsStops(digits, "");
    assert digits + "" == digits;
    ParseIntMinus(m, digits, DigitsValue(digits));
  }

  lemma {:induction false} DigitRunOf(digits: string, rest: string)
    requires AllDigits(digits)
    requires |rest| == 0 || !IsDigit(rest[0])
    ensures DigitRun(digits + rest) == |digits|
  {
    if |digits| > 0 {
      assert (digits + rest)[1..] == digits[1..] + rest;
      DigitRunOf(digits[1..], rest);
    }
  }
}

=== FILE: tickets.dfy ===
/**
 The ticket record and the two shapes of data that change it: the editor's
 full payload (`Draft`) and a partial update (`Patch`). Timestamps are
 milliseconds since the epoch; the ISO-8601 strings the dashboard stores
 are a rendering of these numbers.
 */
module Tickets {
  import opened Wrappers

  const OPEN := "open"
  const IN_PROGRESS := "in-progress"
  const RESOLVED := "resolved"
  const CLOSED := "closed"

  const LOW := "low"
  const MEDIUM := "medium"
  const HIGH := "high"
  const CRITICAL := "critical"

  /** Milliseconds in a day, `1000 * 60 * 60 * 24`. */
  const DAY_MS: int := 1000 * 60 * 60 * 24

  /**
   `iso.split('T')[0]` read back as a date: the UTC midnight that starts the
   day containing `ms` (Euclidean `%` rounds toward minus infinity, as the
   calendar does for dates before 1970).
   */
  function DayOf(ms: int): (day: int)
    ensures day <= ms < day + DAY_MS
    ensures day % DAY_MS == 0
  {
    ms - ms % DAY_MS
  }

  /** Status and priority are plain strings in the records; these are the values the UI writes. */
  predicate KnownStatus(s: string) {
    s == OPEN || s == IN_PROGRESS || s == RESOLVED || s == CLOSED
  }

  predicate KnownPriority(p: string) {
    p == LOW || p == MEDIUM || p == HIGH || p == CRITICAL
  }

  /**
   A stored ticket. `assignee` and `customerName` are absent (`None`) on
   records that never had the key; the editor always writes a string,
   possibly empty. A missing due date or estimate is `null`, here `None`.
   */
  datatype Ticket = Ticket(
    id: int,
    title: string,
    description: string,
    status: string,
    priority: string,
    assignee: Option<string>,
    customerName: Option<string>,
    createdAt: int,
    updatedAt: int,
    dueDate: Option<int>,
    estimatedHours: Option<int>,
    tags: seq<string>)

  /** The normalised payload the ticket editor submits (every key present). */
  datatype Draft = Draft(
    title: string,
    description: string,
    priority: string,
    assignee: string,
    dueDate: Option<int>,
    status: string,
    customerName: string,
    estimatedHours: Option<int>,
    tags: seq<string>)

  /** One key of a partial update: left out of the object, or present with a value. */
  datatype Field<T> = Absent | Present(value: T) {
    function Or(current: T): T {
      if Present? then value else current
    }
  }

  /**
   The keys an update may carry. No caller sends `id`, `createdAt` or
   `updatedAt`, so a patch has no slot for them.
   */
  datatype Patch = Patch(
    title: Field<string>,
    description: Field<string>,
    status: Field<string>,
    priority: Field<string>,
    assignee: Field<string>,
    customerName: Field<string>,
    dueDate: Field<Option<int>>,
    estimatedHours: Field<Option<int>>,
    tags: Field<seq<string>>)

  const EmptyPatch := Patch(Absent, Absent, Absent, Absent, Absent, Absent, Absent, Absent, Absent)

  /** `{ status }`: the patch a drop or a status-menu choice sends. */
  function StatusPatch(status: string): (p: Patch)
    ensures p.status == Present(status)
    ensures p.(status := Absent) == EmptyPatch
  {
    EmptyPatch.(status := Present(status))
  }

  /** The editor's payload used as an update: every key present. */
  function DraftPatch(d: Draft): Patch {
    Patch(Present(d.title), Present(d.description), Present(d.status), Present(d.priority),
          Present(d.assignee), Present(d.customerName), Present(d.dueDate),
          Present(d.estimatedHours), Present(d.tags))
  }

  /** `{ ...ticket, ...patch, updatedAt: now }`. */
  function Apply(t: Ticket, p: Patch, now: int): Ticket {
    t.(title := p.title.Or(t.title),
       description := p.description.Or(t.description),
       status := p.status.Or(t.status),
       priority := p.priority.Or(t.priority),
       assignee := if p.assignee.Present? then Some(p.assignee.value) else t.assignee,
       customerName := if p.customerName.Present? then Some(p.customerName.value) else t.customerName,
       dueDate := p.dueDate.Or(t.dueDate),
       estimatedHours := p.estimatedHours.Or(t.estimatedHours),
       tags := p.tags.Or(t.tags),
       updatedAt := now)
  }

  /** Two patches in a row: keys of the later one win, the rest come from the earlier one. */
  function Then(p: Patch, q: Patch): Patch {
    Patch(if q.title.Present? then q.title else p.title,
          if q.description.Present? then q.description else p.description,
          if q.status.Present? then q.status else p.status,
          if q.priority.Present? then q.priority else p.priority,
          if q.assignee.Present? then q.assignee else p.assignee,
          if q.customerName.Present? then q.customerName else p.customerName,
          if q.dueDate.Present? then q.dueDate else p.dueDate,
          if q.estimatedHours.Present? then q.estimatedHours else p.estimatedHours,
          if q.tags.Present? then q.tags else p.tags)
  }

  /** A patch never touches identity or creation time; the update time is the one given. */
  lemma ApplyKeepsIdentity(t: Ticket, p: Patch, now: int)
    ensures Apply(t, p, now).id == t.id
    ensures Apply(t, p, now).createdAt == t.createdAt
    ensures Apply(t, p, now).updatedAt == now
  {
  }

  /** An empty patch only refreshes `updatedAt`. */
  lemma ApplyEmpty(t: Ticket, now: int)
    ensures Apply(t, EmptyPatch, now) == t.(updatedAt := now)
  {
  }

  /** Applying two patches is applying their merge once, at the later time. */
  lemma ApplyThen(t: Ticket, p: Patch, q: Patch, n1: int, n2: int)
    ensures Apply(Apply(t, p, n1), q, n2) == Apply(t, Then(p, q), n2)
  {
  }

  /** Re-applying the same patch changes nothing but the time. */
  lemma ApplyIdempotent(t: Ticket, p: Patch, n1: int, n2: int)
    ensures Apply(Apply(t, p, n1), p, n2) == Apply(t, p, n2)
  {
  }

  /** A status patch sets the status and leaves every other field except `updatedAt` alone. */
  lemma ApplyStatusPatch(t: Ticket, status: string, now: int)
    ensures Apply(t, StatusPatch(status), now) == t.(status := status, updatedAt := now)
  {
  }

  /**
   The overdue test shared by the dashboard statistic and the column badge:
   a due date strictly before `now` on a ticket that is neither resolved nor closed.
   */
  predicate OverdueAt(t: Ticket, now: int) {
    t.dueDate.Some? && t.dueDate.value < now && t.status != RESOLVED && t.status != CLOSED
  }
}

=== FILE: wrappers.dfy ===
/** Absent-or-present values: JavaScript's `undefined`/`null` next to a real value. */
module Wrappers {

  datatype Option<+T> = None | Some(value: T) {

    /** Returns the wrapped value, or `default` when there is none. */
    function GetOr(default: T): T {
      match this
      case Some(v) => v
      case None => default
    }
  }
}
